=== FILE: README.md ===
# Paper-Review-Gauntlet, modelled in Dafny

The Gauntlet is a resumable batch engine that reviews a research proposal
with a generation service. Three reviewer personas (`dr_silas_vane`,
`prof_amara_kito`, `dr_julian_rex`) each review the proposal three times,
at temperatures 0.3, 0.7 and 1.0. That gives 9 expert reviews (phase 1).
Each of the 3^3 = 27 ways to pick one review per persona is then handed to
a synthesiser persona (phase 2). Its report lands in a folder named after
the combo, such as `silas_1__amara_2__julian_3`, next to copies of the
three reviews it was built from.

Resuming is based on one rule alone: a file is reused when it exists and
does not start with `[ERROR`. Everything else is done again. A companion
script, the persona factory, turns a list of research topics into persona
files. It instantiates a Markdown template once per topic and skips topics
whose file already exists.

The model has these parts:

- `strings.dfy` (module `Strings`): the string operations both scripts
  rely on. These are `startswith`, `strip` with Python's whitespace set,
  `join`, decimal formatting of integers, and ASCII `upper`/`lower`.
- `store.dfy`, module `Store`: the filesystem as a class `FileStore` whose
  `files` map goes from a `Key` to the file's text. A `Key` is a datatype
  naming what the path encodes. The module also holds the validity test
  `is_valid_output`.
- `store.dfy`, module `Service`: the generation service as a class
  `Client`. It answers each request with the next reply of a script fixed
  in advance, or fails, and it logs every request. `World` and `Progress`
  are the same state as values, used by the reference definitions.
- `gauntlet.dfy` (module `Gauntlet`): the constants of main.py, plus
  `combo_label`, `load_persona`, `build_context` and the synthesiser's
  message.
- `combos.dfy` (module `Combos`): `itertools.product` over the run
  indices, that is, the 27 combos in the order phase 2 visits them.
- `phase1.dfy`, `phase2.dfy`, `pipeline.dfy` (modules `Phase1`, `Phase2`,
  `Pipeline`): `phase1`, `phase2` and `main`. Each loop of the script is a
  method on the `FileStore` and `Client` objects. Each method is proved
  equal to a reference function over `World`; for example,
  `RunPhase2`'s new state is `Phase2Spec` of its old state. The lemmas
  about those functions state what main.py's docstring (main.py:7-9)
  promises of an idempotent, resumable run:
  - a valid file is never rewritten;
  - a call is made only for an invalid output, even in a run that stops part-way;
  - a completed run over well-behaved replies leaves all 36 outputs valid;
  - running again afterwards makes no call and changes nothing.
- `factory.dfy` (module `PersonaFactory`): `sanitize_filename`, the line
  filter of `load_topics` and the generation loop of persona_factory.py's
  `main`, with its per-topic `try`/`except`.

A failed service call is modelled as a `Failure` reply. In main.py nothing
catches it, so it ends the run (`completed == false`). Work written before
the failure stays on disk. In the persona factory the `except` catches it,
and the loop moves on to the next topic.

Two points where the code does less than its own comments suggest. The
model follows the code:

- No error placeholder is written. The docstring (main.py:7-9) and
  `is_valid_output` (main.py:114) speak of error placeholders, but in
  main.py a failed call's exception propagates out of `phase1`/`phase2`
  and ends the script, and nothing in either script writes `[ERROR`. A
  file starts with `[ERROR` only if the service's reply did.
- Phase 2 does not check its source reviews. Its skip test looks only at
  the combo's own folder. `phase2` runs only after `phase1` completed,
  and then all 9 review files exist (`Phase1.Phase1WritesAllReviews`)
  and the dict it is given has every entry (`Pipeline.ReturnedReviews`),
  so `reviews[p][r]` never raises `KeyError`. Phase 1 writes whatever
  text the service replied, so a review that itself starts with `[ERROR`
  is still passed on to the synthesiser.

## Model

| member | source | states |
|---|---|---|
| Store.FileStore.IsValid | main.py:113-117 | the result is true exactly when the file exists and its text does not start with `[ERROR` |
| Store.FileStore.Copy | main.py:218-220 | `shutil.copy2` overwrites the destination with the source's text; a missing source writes nothing and reports failure |
| Service.Client.Create | main.py:142-149 | a call returns the next reply of the script, or a failure once the script is exhausted; the request is appended to the log |
| Service.Ask | main.py:142-149 | the value form of one call: files unchanged, one reply used up, the request logged; with no error text in the script the reply holds none either |
| Strings.Strip | main.py:92 | `strip()` leaves no whitespace at either end and never lengthens the text |
| Strings.StripSplit | main.py:92 | what `strip` keeps is a slice of the text with only stripped characters before and after it, and an empty result leaves nothing before it |
| Strings.StripByOf | persona_factory.py:65 | conversely, any text with no stripped character at either end comes back exactly from `strip` whatever stripped characters surround it |
| Strings.Upper | main.py:193 | `upper()` maps each character to its upper-case form and keeps the length |
| Strings.ReplaceChar | main.py:193 | `replace('_', ' ')` turns every `_` into a space and keeps every other character in place |
| Strings.IntToStringInjective | main.py:110 | distinct run indices print as distinct decimal strings |
| Strings.IntToStringRoundTrip | main.py:110 | the decimal text of a run index parses back to that index |
| Strings.Lower | persona_factory.py:62 | `lower()` maps each character to its lower-case form and keeps the length |
| Gauntlet.StripPersonaHeader | main.py:92-95 | the prompt has no surrounding whitespace; without a leading `**System Prompt:**` header it is the stripped file text; with one it is shorter by at least the header; a file that starts with the header gives the rest of the file, stripped |
| Gauntlet.StripPersonaHeaderKeepsPlainPrompt | main.py:92-95 | text already stripped and without the header comes back unchanged |
| Gauntlet.StripPersonaHeaderRemovesOneHeader | main.py:92-95 | a file that reads any whitespace, the header, then any text gives that text, stripped: exactly one header is removed, and whatever follows it, even a second header, is kept |
| Gauntlet.LoadPersona | main.py:87-95 | a prompt is loaded exactly when `personas/<name>.md` exists (otherwise `FileNotFoundError`); it is the file's text with the `**System Prompt:**` header removed, and it is stripped |
| Gauntlet.PromptOf | main.py:129 | when the persona file exists, the prompt used is the one `load_persona` returns |
| Gauntlet.OrderDistinct | main.py:61-65 | the three personas of `PERSONA_ORDER` are distinct |
| Gauntlet.ShortNames | main.py:68-72 | `PERSONA_SHORT` maps the personas, in order, to `silas`, `amara`, `julian` |
| Gauntlet.BuildContextRecoverable | main.py:98-105 | the labelled context `BuildContext` determines both documents once the length of the call text is known |
| Gauntlet.SynthesisMessageExtendsContext | main.py:199-206 | the synthesiser's message `SynthesisMessage` is the reviewers' context, unchanged, followed by the reviews heading and the review block |
| Gauntlet.TaggedReviews | main.py:192-197 | one tagged review per `(persona, run)` pair of `zip(PERSONA_ORDER, combo)`; their content is the next three rows |
| Gauntlet.PersonaCaptions | main.py:193 | the three personas are captioned `DR SILAS VANE`, `PROF AMARA KITO` and `DR JULIAN REX` |
| Gauntlet.ReviewHeadings | main.py:193 | `ReviewHeading` tags each persona's review with its caption, the run index and that run's temperature |
| Gauntlet.ReviewBlockOfTriple | main.py:192-197 | the `review_block` (`ReviewBlock`) of a combo `(a, b, c)` is the three reviews `a`, `b`, `c` of the personas in order, each after its heading, separated by blank lines |
| Gauntlet.ComboLabelOfTriple | main.py:108-110 | the label `ComboLabel` of a combo `(a, b, c)` is `silas_a__amara_b__julian_c` |
| Gauntlet.ComboLabelInjective | main.py:108-110 | two combos with the same label are the same combo |
| Combos.ProductMember | main.py:168-170 | a tuple is in `product(xs, repeat=n)` (`Product`) exactly when it has length n and every entry is in xs |
| Combos.ProductLength | main.py:168-170 | `product(xs, repeat=n)` yields \|xs\|^n tuples |
| Combos.ProductIncreasing | main.py:168-170 | over increasing `xs`, such as `range(1, 4)`, `product` yields its tuples in strictly increasing lexicographic order |
| Combos.AllCombosFacts | main.py:168-170 | `AllCombos`, the list phase 2 walks: 27 combos, exactly the tuples with a run index 1..3 per persona, in lexicographic order, no two with the same folder label |
| Phase1.LeafKeys | main.py:128-133 | the files the two loops of `phase1` visit are exactly the 9 review files, `run_1..3.md` of each persona |
| Phase1.LeafKeysDistinct | main.py:128-133 | the two loops visit 9 files and never the same file twice |
| Phase1.ReviewOnce | main.py:131-151 | one run: a valid file is read back and reused; otherwise the service is called with the persona's prompt, the context and the run's temperature, and the reply is written and returned |
| Phase1.RunReviews | main.py:130-151 | the inner loop equals its reference definition; on completion the persona's entry holds the text of each of its 3 review files |
| Phase1.ReviewPersona | main.py:128-151 | one pass of the outer loop: loads the persona's prompt and runs the inner loop, touching no file but that persona's review files |
| Phase1.RunPhase1 | main.py:124-154 | `phase1` equals `Phase1Spec`; a returned dict maps each persona to the text of its review files |
| Phase1.Phase1KeepsValidFiles | main.py:135-139 | a valid cached review is never rewritten, and no file other than the 9 review files is touched, whether phase 1 completes or aborts |
| Phase1.Phase1WritesAllReviews | main.py:128-151 | when phase 1 completes, all 9 review files exist |
| Phase1.Phase1CallsOnlyForInvalidFiles | main.py:136-148 | whether phase 1 completes or stops at a failure, its calls are a prefix of the list of one call per review file that was not valid, in grid order, so never more than the number of invalid files; a completed phase 1 makes all of them |
| Phase1.Phase1IdempotentWhenAllValid | main.py:7-9 | with the prompts present and all 9 reviews valid, phase 1 makes no call and changes nothing |
| Phase1.Phase1LeavesValidFiles | main.py:142-151 | with no error text among the replies, a completed phase 1 leaves all 9 reviews valid; it completes only if every persona prompt exists |
| Phase2.ReviewsOfCombo | main.py:195 | with every review available, each `reviews[p][r]` of a combo exists |
| Phase2.CopiesValid | main.py:179-182 | `source_copies_ok` is true exactly when each persona's copy in the folder is valid |
| Phase2.CopySources | main.py:218-220 | the copy loop equals `CopiesFrom`: one `copy2` per persona, aborting at a missing source |
| Phase2.SynthesizeJob | main.py:208-220 | one synthesis: call with the synthesiser's prompt; on failure stop with nothing written; otherwise write `SYNTHESIS.md` and copy the three sources |
| Phase2.SynthesizeCombo | main.py:172-220 | the loop body equals `ComboStep` for the combo's label and message: skip a complete folder, else load the synthesiser's prompt and synthesise |
| Phase2.RunPhase2 | main.py:161-222 | `phase2` equals `Phase2Spec`, the 27 combos in product order |
| Phase2.Phase2Jobs | main.py:168-174 | the jobs of phase 2 are 27, one per combo, each with a folder of its own |
| Phase2.JobOfCombo | main.py:172-174 | every combo is one of the jobs, and its folder is its label |
| Phase2.FolderOfJob | main.py:173-174 | every job works in the folder named by its combo's label |
| Phase2.Phase2KeepsOtherFiles | main.py:172-220 | phase 2 writes only under `outputs/syntheses/`; every other file keeps its text |
| Phase2.Phase2KeepsCompleteFolder | main.py:178-185 | a combo folder that is complete at the start (synthesis and three copies valid) is left exactly as it was |
| Phase2.Phase2Requests | main.py:183-214 | whether phase 2 completes or stops at a failure, its calls are a prefix of the list of one call per combo that was not complete, in combo order, with the synthesiser's prompt and that combo's message, so at most 27 calls; a completed phase 2 makes all of them |
| Phase2.JobsCompleteIff | main.py:172-185 | every job's folder is complete exactly when every combo's folder is complete |
| Phase2.Phase2CallsIffIncomplete | main.py:178-214 | a completed phase 2 makes no call exactly when every combo folder was already complete |
| Phase2.Phase2CompletesAllCombos | main.py:172-220 | with valid sources and no error text among the replies, a completed phase 2 leaves all 27 folders complete |
| Phase2.Phase2WritesReplies | main.py:207-215 | in a completed phase 2, every combo that was not complete holds a new `SYNTHESIS.md`: if n combos before it were incomplete, its request is the n-th pending synthesis, the n-th reply is text, and that text is what its `SYNTHESIS.md` holds |
| Phase2.Phase2CopiesSources | main.py:217-220 | in every combo that was rebuilt, each persona's copy holds the text of that persona's review for the combo's run |
| Phase2.Phase2IdleWhenComplete | main.py:178-185 | when every folder is complete, phase 2 makes no call and changes nothing |
| Pipeline.ReviewsOf | main.py:124-126 | the dict the review files hold: every persona is a key, and each existing review file's text is its entry |
| Pipeline.ReturnedReviews | main.py:290-294 | the dict `phase1` returns is the dict its files hold, and it has every review `phase2` reads |
| Pipeline.ReviewsOfAvailable | main.py:290-294 | once the 9 review files exist, the dict they hold has every review |
| Pipeline.RunGauntlet | main.py:276-294 | `main` after loading the documents equals `RunSpec`: build the context, run phase 1, and if it completes, run phase 2 on the dict it returned |
| Pipeline.Phase1Outputs | main.py:128-151 | with no error text among the replies, a completed phase 1 leaves the 9 reviews valid and the prompts present |
| Pipeline.Phase2Outputs | main.py:172-220 | from valid reviews and present prompts, a completed phase 2 leaves every output valid |
| Pipeline.RunLeavesAllValid | main.py:288-294 | with no error text among the replies, a completed run leaves all 9 reviews and all 27 combo folders valid and the prompts in place |
| Pipeline.RunIdleWhenAllValid | main.py:7-9 | over files whose outputs are all valid, a run makes no call and changes nothing, whatever the service would answer |
| Pipeline.RerunIsIdle | main.py:7-9 | after a completed run with no error text, a second run over the files it left, with any replies, makes no call and changes nothing |
| PersonaFactory.MaskOthers | persona_factory.py:63 | every character outside `[a-z0-9]` becomes `_`; the rest are kept in place |
| PersonaFactory.SanitizeFilename | persona_factory.py:60-65 | the name ends in `.md`, and what precedes it is the topic's stem |
| PersonaFactory.CollapseFacts | persona_factory.py:64 | `CollapseUnderscores` (`re.sub(r"_+", "_", …)`) leaves no `__`, keeps every other character in order, and keeps the text within `[a-z0-9_]` |
| PersonaFactory.CollapseNoDouble | persona_factory.py:64 | a text without `__` is left alone by the collapse |
| PersonaFactory.MaskNonUnderscores | persona_factory.py:63 | apart from underscores, the masked text holds exactly the `[a-z0-9]` characters of its input, in order |
| PersonaFactory.StripKeepsNonUnderscores | persona_factory.py:65 | `strip("_")` removes underscores only: every other character is kept, in order |
| PersonaFactory.StemClean | persona_factory.py:62-65 | a stem holds only `[a-z0-9_]`, never `__`, and no `_` at either end |
| PersonaFactory.StemKeepsLettersAndDigits | persona_factory.py:62-65 | the non-underscore characters of a stem are the ASCII letters and digits of the lower-cased topic, in order |
| PersonaFactory.SanitizeIdempotent | persona_factory.py:60-65 | sanitising a stem again gives the same file name |
| PersonaFactory.LoadTopics | persona_factory.py:44-57 | a missing topics file gives no topics; otherwise the topics are `TopicLines` of its lines: at most one per line, each non-empty and stripped |
| PersonaFactory.TopicLines | persona_factory.py:52-56 | at most one topic per line; every topic is non-empty and stripped |
| PersonaFactory.TopicLinesAppend | persona_factory.py:52-56 | the filter works line by line: two blocks of lines give their topics concatenated, in order |
| PersonaFactory.TopicLinesMember | persona_factory.py:52-56 | a string is a topic exactly when some line is non-blank, does not start with `#` as written, and strips to it |
| PersonaFactory.GenerateOne | persona_factory.py:148-163 | one topic equals `TopicStep`: skip an existing file; else call with the topic and the template and write the reply, or leave the files as they were when the call fails |
| PersonaFactory.GeneratePersonas | persona_factory.py:147-166 | the loop equals `FactorySpec`, every topic in order, always reaching the end |
| PersonaFactory.RunFactory | persona_factory.py:133-166 | the loop starts exactly when the stripped template is non-empty and some topic survives the filter; it then runs on those topics, and otherwise nothing changes |
| PersonaFactory.FactoryKeepsExisting | persona_factory.py:152-155 | a file that exists before the loop keeps its text |
| PersonaFactory.FactoryCreatesOnlyTopicFiles | persona_factory.py:149-158 | every file the loop creates is the persona file of one of its topics |
| PersonaFactory.FactoryCalls | persona_factory.py:147-158 | the loop only appends to the request log: at most one call per topic, each instantiating the template for a topic whose file did not exist, and no call for a topic whose file existed |
| PersonaFactory.FactoryWritesAll | persona_factory.py:147-158 | with a text reply for every topic, every topic ends with its persona file |
| PersonaFactory.FailureIsolated | persona_factory.py:165-166 | a failed call leaves the files as they were, and with text replies for the rest every later topic still gets its file |
| PersonaFactory.FactoryIdle | persona_factory.py:152-155 | when every topic has its file, the loop makes no call and changes nothing |
| PersonaFactory.RegenerationIsIdle | persona_factory.py:152-155 | after a loop that got a text reply per topic, a second loop over the same topics makes no call and changes nothing |

## Left out

- Loading the PDFs (`load_pdf_text`), the `.env` file and the API key
  check are left out. The two document texts are parameters of
  `RunGauntlet`, and a missing key ends both scripts before any work.
- `write_run_config` is left out. It writes `RUN_CONFIG.md` from
  constants only, and nothing reads it back.
- Console output is left out, as are `mkdir` and `time.sleep`.
- The model name and the SDK's retries (`MAX_RETRIES`) are left out. A
  call that still fails after its retries is a `Failure` reply.
- `resp.content[0].text` is left out: a reply either is text or fails. A
  response without a text block would raise, which the model treats as
  a failure.
- Temperatures are kept as the text Python prints for them ("0.3",
  "0.7", "1.0"), because the scripts only pass them on and print them.
  Floating point is not modelled.
- Reading and writing files is whole-text and never fails, except that
  a missing file raises. The encoding and `copy2`'s metadata copy are
  not modelled, nor is the non-atomic write: a crash half-way through a
  write is outside the model.
- `Strings.Lower`, `Strings.Upper`: map ASCII letters only, while
  Python's `lower()`/`upper()` follow the full Unicode case mappings.
  After `lower()`, `sanitize_filename` masks every non-ASCII character
  anyway, so the difference shows only for a non-ASCII character whose
  lower-case form contains ASCII letters. The Kelvin sign lowers to `k`.
  `İ` (U+0130) lowers to `i` followed by a combining dot, so in Python
  `İstanbul` gives `i_stanbul.md`, where the model gives `stanbul.md`.
  `Upper` is applied only to the three ASCII persona names.
- `load_topics` takes the list of lines of the topics file, or none
  when the file is missing; `str.splitlines` is not modelled.
  `load_file` is a template that is present or absent, stripped inside
  `RunFactory`.
- `PersonaFactory.GenerateOne`: the `except Exception` in the factory
  loop also catches write errors. Writes never fail in the model, so
  only a failed call is caught.
- `Phase2.RunPhase2`: requires every review to be in the dict. A dict
  without some `reviews[p][r]` would raise `KeyError` in `phase2`, but
  `main` only ever passes the dict `phase1` returned, which is full
  (`Pipeline.ReturnedReviews`).
- Directories are not modelled, only files. A failure between an
  `mkdir` and the next write leaves an empty directory, which no later
  run looks at.
- generate_dummy.py and generate_persona.py are not part of this model.
  They are one-off helpers outside the review engine and the factory
  loop.

=== FILE: combos.dfy ===
/**
 * The combo list of phase 2:
 * `itertools.product(range(1, len(TEMPERATURES) + 1), repeat=len(PERSONA_ORDER))`,
 * with its size, its members, its order and the distinctness of its labels.
 */
module Combos {
  import opened Strings
  import opened Gauntlet

  /** `range(lo, hi)`. */
  function Range(lo: int, hi: int): (r: seq<int>)
    ensures |r| == if lo < hi then hi - lo else 0
    ensures forall k :: 0 <= k < |r| ==> r[k] == lo + k
    decreases hi - lo
  {
    if lo >= hi then [] else [lo] + Range(lo + 1, hi)
  }

  /** Every tail, in order, with `x` in front. */
  function Prepend(x: int, tails: seq<seq<int>>): (r: seq<seq<int>>)
    ensures |r| == |tails|
    ensures forall k :: 0 <= k < |r| ==> r[k] == [x] + tails[k]
  {
    seq(|tails|, k requires 0 <= k < |tails| => [x] + tails[k])
  }

  /** For each `x` of `xs` in turn, every tail with `x` in front. */
  function Extend(xs: seq<int>, tails: seq<seq<int>>): seq<seq<int>> {
    if xs == [] then [] else Prepend(xs[0], tails) + Extend(xs[1..], tails)
  }

  /** `itertools.product(xs, repeat=n)`: the first position varies slowest. */
  function Product(xs: seq<int>, n: nat): seq<seq<int>> {
    if n == 0 then [[]] else Extend(xs, Product(xs, n - 1))
  }

  function Pow(b: nat, e: nat): nat {
    if e == 0 then 1 else b * Pow(b, e - 1)
  }

  predicate Increasing(xs: seq<int>) {
    forall i, j :: 0 <= i < j < |xs| ==> xs[i] < xs[j]
  }

  /** Python's `<` on tuples of ints. */
  predicate LexLess(a: seq<int>, b: seq<int>)
    decreases |a|
  {
    if a == [] then b != []
    else b != [] && (a[0] < b[0] || (a[0] == b[0] && LexLess(a[1..], b[1..])))
  }

  /** Every later element is lexicographically greater than every earlier one. */
  predicate LexIncreasing(cs: seq<seq<int>>) {
    forall i, j :: 0 <= i < j < |cs| ==> LexLess(cs[i], cs[j])
  }

  lemma {:induction false} LexLessIrreflexive(a: seq<int>)
    ensures !LexLess(a, a)
  {
    if a != [] {
      LexLessIrreflexive(a[1..]);
    }
  }

  lemma {:induction false} ExtendLength(xs: seq<int>, tails: seq<seq<int>>)
    ensures |Extend(xs, tails)| == |xs| * |tails|
  {
    if xs != [] {
      ExtendLength(xs[1..], tails);
      assert |Extend(xs, tails)| == |tails| + (|xs| - 1) * |tails|;
      assert |tails| + (|xs| - 1) * |tails| == |xs| * |tails|;
    }
  }

  lemma PrependMember(x: int, tails: seq<seq<int>>, c: seq<int>)
    ensures c in Prepend(x, tails) <==> c != [] && c[0] == x && c[1..] in tails
  {
    var r := Prepend(x, tails);
    if c in r {
      var k :| 0 <= k < |r| && r[k] == c;
      assert c[1..] == tails[k];
    }
    if c != [] && c[0] == x && c[1..] in tails {
      var k :| 0 <= k < |tails| && tails[k] == c[1..];
      assert r[k] == [x] + c[1..] == c;
    }
  }

  lemma {:induction false} ExtendMember(xs: seq<int>, tails: seq<seq<int>>, c: seq<int>)
    ensures c in Extend(xs, tails) <==> c != [] && c[0] in xs && c[1..] in tails
  {
    if xs != [] {
      PrependMember(xs[0], tails, c);
      ExtendMember(xs[1..], tails, c);
      assert c != [] && c[0] in xs ==> c[0] == xs[0] || c[0] in xs[1..];
    }
  }

  lemma {:induction false} ExtendIncreasing(xs: seq<int>, tails: seq<seq<int>>)
    requires Increasing(xs) && LexIncreasing(tails)
    ensures LexIncreasing(Extend(xs, tails))
  {
    if xs != [] {
      var front, back := Prepend(xs[0], tails), Extend(xs[1..], tails);
      ExtendIncreasing(xs[1..], tails);
      forall i, j | 0 <= i < j < |front| ensures LexLess(front[i], front[j]) {
        assert front[i][1..] == tails[i] && front[j][1..] == tails[j];
      }
      forall a, b | a in front && b in back ensures LexLess(a, b) {
        PrependMember(xs[0], tails, a);
        ExtendMember(xs[1..], tails, b);
        assert b[0] in xs[1..];
      }
      var all := front + back;
      forall i, j | 0 <= i < j < |all| ensures LexLess(all[i], all[j]) {
        if j < |front| {
          assert all[i] == front[i] && all[j] == front[j];
        } else if i >= |front| {
          assert all[i] == back[i - |front|] && all[j] == back[j - |front|];
        } else {
          assert all[i] in front && all[j] in back;
        }
      }
    }
  }

  lemma {:induction false} ProductLength(xs: seq<int>, n: nat)
    ensures |Product(xs, n)| == Pow(|xs|, n)
  {
    if n > 0 {
      ProductLength(xs, n - 1);
      ExtendLength(xs, Product(xs, n - 1));
    }
  }

  lemma {:induction false} ProductMember(xs: seq<int>, n: nat, c: seq<int>)
    ensures c in Product(xs, n) <==> |c| == n && forall k :: 0 <= k < n ==> c[k] in xs
  {
    if n > 0 {
      ExtendMember(xs, Product(xs, n - 1), c);
      if c != [] {
        ProductMember(xs, n - 1, c[1..]);
        assert forall k :: 1 <= k < |c| ==> c[k] == c[1..][k - 1];
      }
    }
  }

  lemma {:induction false} ProductIncreasing(xs: seq<int>, n: nat)
    requires Increasing(xs)
    ensures LexIncreasing(Product(xs, n))
  {
    if n > 0 {
      ProductIncreasing(xs, n - 1);
      ExtendIncreasing(xs, Product(xs, n - 1));
    }
  }

  /** The combos phase 2 walks through, in the order it walks them. */
  function AllCombos(): seq<seq<int>> {
    Product(Range(1, |TEMPERATURES| + 1), |PERSONA_ORDER|)
  }

  /** No two combos of `cs` share a folder label. */
  predicate DistinctLabels(cs: seq<seq<int>>) {
    forall i, j :: 0 <= i < j < |cs| ==> ComboLabel(cs[i]) != ComboLabel(cs[j])
  }

  /**
   * Phase 2 visits 3^3 = 27 combos, exactly the tuples with one run index in
   * 1..3 per persona, in strictly increasing lexicographic order, each with a
   * folder of its own.
   */
  lemma AllCombosFacts()
    ensures |AllCombos()| == 27
    ensures forall c :: c in AllCombos() <==> IsCombo(c)
    ensures LexIncreasing(AllCombos())
    ensures DistinctLabels(AllCombos())
  {
    var runs := Range(1, |TEMPERATURES| + 1);
    ProductLength(runs, |PERSONA_ORDER|);
    assert Pow(3, 3) == 27;
    forall r | IsRun(r) ensures r in runs {
      assert runs[r - 1] == r;
    }
    forall c ensures c in AllCombos() <==> IsCombo(c) {
      ProductMember(runs, |PERSONA_ORDER|, c);
    }
    ProductIncreasing(runs, |PERSONA_ORDER|);
    var cs := AllCombos();
    forall i, j | 0 <= i < j < |cs| ensures ComboLabel(cs[i]) != ComboLabel(cs[j]) {
      LexLessIrreflexive(cs[i]);
      assert cs[i] in cs && cs[j] in cs;
      if ComboLabel(cs[i]) == ComboLabel(cs[j]) {
        ComboLabelInjective(cs[i], cs[j]);
      }
    }
  }
}

=== FILE: factory.dfy ===
/**
 * The persona factory (persona_factory.py): turn each topic of a list into a
 * persona file by asking the service to instantiate a template for it.
 *
 * `SanitizeFilename` names the file of a topic; `TopicLines` is the line
 * filter of `load_topics`; `FactorySpec` is the reference definition of the
 * generation loop of `main`, and `GeneratePersonas` the loop itself, proved
 * equal to it. Unlike the review engine, a failed call here is caught: the
 * topic is left without a file and the loop goes on.
 */
module PersonaFactory {
  import opened Strings
  import opened Store
  import opened Service
  import opened Gauntlet

  // ---------------------------------------------------------------------------
  // sanitize_filename
  // ---------------------------------------------------------------------------

  /** A character `[a-z0-9]` matches. */
  predicate IsStemChar(c: char) {
    ('a' <= c <= 'z') || ('0' <= c <= '9')
  }

  /** `re.sub(r'[^a-z0-9]', '_', s)`: every other character becomes an underscore. */
  function MaskOthers(s: string): (r: string)
    ensures |r| == |s|
    ensures forall i :: 0 <= i < |s| ==> r[i] == if IsStemChar(s[i]) then s[i] else '_'
  {
    seq(|s|, i requires 0 <= i < |s| => if IsStemChar(s[i]) then s[i] else '_')
  }

  /** `re.sub(r'_+', '_', s)`: every run of underscores becomes a single one. */
  function CollapseUnderscores(s: string): string
    decreases |s|
  {
    if |s| <= 1 then s
    else if s[0] == '_' && s[1] == '_' then CollapseUnderscores(s[1..])
    else [s[0]] + CollapseUnderscores(s[1..])
  }

  /** The topic's name without its extension. */
  function Stem(name: string): string {
    StripBy(CollapseUnderscores(MaskOthers(Lower(name))), Chars("_"))
  }

  /** `sanitize_filename`: lower-case, mask, collapse, strip the underscores at the ends, add `.md`. */
  function SanitizeFilename(name: string): (filename: string)
    ensures EndsWith(filename, ".md")
    ensures filename[..|filename| - 3] == Stem(name)
  {
    var stem := Stem(name);
    assert (stem + ".md")[..|stem|] == stem;
    stem + ".md"
  }

  /** No two underscores in a row. */
  predicate NoDoubleUnderscore(s: string) {
    forall i :: 0 <= i < |s| - 1 ==> !(s[i] == '_' && s[i + 1] == '_')
  }

  /** Only `[a-z0-9_]`. */
  predicate StemAlphabet(s: string) {
    forall i :: 0 <= i < |s| ==> IsStemChar(s[i]) || s[i] == '_'
  }

  /** What a stem can look like: `[a-z0-9_]` only, no `__`, no `_` at either end. */
  predicate IsCleanStem(s: string) {
    StemAlphabet(s) && NoDoubleUnderscore(s) && NoEdge(s, Chars("_"))
  }

  /** The characters of `s` other than underscores, in order. */
  function NonUnderscores(s: string): (r: string)
    ensures forall c <- r :: c in s && c != '_'
  {
    if s == [] then [] else (if s[0] == '_' then [] else [s[0]]) + NonUnderscores(s[1..])
  }

  /** The `[a-z0-9]` characters of `s`, in order. */
  function StemChars(s: string): string {
    if s == [] then [] else (if IsStemChar(s[0]) then [s[0]] else []) + StemChars(s[1..])
  }

  lemma {:induction false} NonUnderscoresAppend(a: string, b: string)
    ensures NonUnderscores(a + b) == NonUnderscores(a) + NonUnderscores(b)
  {
    if a != [] {
      var head := if a[0] == '_' then [] else [a[0]];
      assert (a + b)[0] == a[0] && (a + b)[1..] == a[1..] + b;
      NonUnderscoresAppend(a[1..], b);
      assert NonUnderscores(a + b) == head + (NonUnderscores(a[1..]) + NonUnderscores(b));
      assert NonUnderscores(a) == head + NonUnderscores(a[1..]);
      assert head + (NonUnderscores(a[1..]) + NonUnderscores(b)) == (head + NonUnderscores(a[1..])) + NonUnderscores(b);
    } else {
      assert a + b == b;
    }
  }

  lemma {:induction false} NonUnderscoresOfUnderscores(s: string)
    requires forall i :: 0 <= i < |s| ==> s[i] == '_'
    ensures NonUnderscores(s) == []
  {
    if s != [] {
      NonUnderscoresOfUnderscores(s[1..]);
    }
  }

  /** Collapsing keeps every character but underscores, in order, and leaves no `__`. */
  lemma {:induction false} CollapseFacts(s: string)
    ensures var r := CollapseUnderscores(s);
      && NonUnderscores(r) == NonUnderscores(s)
      && NoDoubleUnderscore(r)
      && (StemAlphabet(s) ==> StemAlphabet(r))
    decreases |s|
  {
    if |s| > 1 {
      var rest := CollapseUnderscores(s[1..]);
      CollapseFacts(s[1..]);
      if s[0] == '_' && s[1] == '_' {
        assert NonUnderscores(s) == NonUnderscores(s[1..]);
      } else {
        var r := [s[0]] + rest;
        assert NonUnderscores(r) == NonUnderscores([s[0]] + rest);
        NonUnderscoresAppend([s[0]], rest);
        NonUnderscoresAppend([s[0]], s[1..]);
        assert [s[0]] + s[1..] == s;
        forall i | 0 <= i < |r| - 1 ensures !(r[i] == '_' && r[i + 1] == '_') {
          if i > 0 {
            assert r[i] == rest[i - 1] && r[i + 1] == rest[i];
          }
        }
      }
    }
  }

  /** A string without `__` is left alone by the collapse. */
  lemma {:induction false} CollapseNoDouble(s: string)
    requires NoDoubleUnderscore(s)
    ensures CollapseUnderscores(s) == s
    decreases |s|
  {
    if |s| > 1 {
      assert NoDoubleUnderscore(s[1..]) by {
        forall i | 0 <= i < |s[1..]| - 1 ensures !(s[1..][i] == '_' && s[1..][i + 1] == '_') {
          assert s[1..][i] == s[i + 1] && s[1..][i + 1] == s[i + 2];
        }
      }
      CollapseNoDouble(s[1..]);
      assert !(s[0] == '_' && s[1] == '_');
      assert [s[0]] + s[1..] == s;
    }
  }

  /** The mask turns exactly the characters the stem keeps into themselves. */
  lemma {:induction false} MaskNonUnderscores(s: string)
    ensures NonUnderscores(MaskOthers(s)) == StemChars(s)
  {
    if s != [] {
      MaskNonUnderscores(s[1..]);
      assert MaskOthers(s)[1..] == MaskOthers(s[1..]);
    }
  }

  /** A slice of a string over `[a-z0-9_]` without `__` is one too. */
  lemma MiddleClean(x: string, m: string, y: string)
    requires StemAlphabet(x + m + y) && NoDoubleUnderscore(x + m + y)
    ensures StemAlphabet(m) && NoDoubleUnderscore(m)
  {
    MiddleAt(x, m, y);
    var s := x + m + y;
    forall i | 0 <= i < |m| - 1 ensures !(m[i] == '_' && m[i + 1] == '_') {
      assert m[i] == s[|x| + i] && m[i + 1] == s[|x| + i + 1];
    }
  }

  /** The stem of a topic is clean: `[a-z0-9_]` only, no `__`, no `_` at either end. */
  lemma StemClean(name: string)
    ensures IsCleanStem(Stem(name))
  {
    var m := MaskOthers(Lower(name));
    var c := CollapseUnderscores(m);
    CollapseFacts(m);
    var x, y := StripSplit(c, Chars("_"));
    MiddleClean(x, Stem(name), y);
  }

  lemma {:induction false} TrimStartKeepsNonUnderscores(s: string)
    ensures NonUnderscores(TrimStart(s, Chars("_"))) == NonUnderscores(s)
  {
    if s != [] && s[0] == '_' {
      TrimStartKeepsNonUnderscores(s[1..]);
    }
  }

  lemma {:induction false} TrimEndKeepsNonUnderscores(s: string)
    ensures NonUnderscores(TrimEnd(s, Chars("_"))) == NonUnderscores(s)
    decreases |s|
  {
    if s != [] && s[|s| - 1] == '_' {
      var init := s[..|s| - 1];
      TrimEndKeepsNonUnderscores(init);
      assert s == init + ['_'];
      NonUnderscoresAppend(init, ['_']);
      assert NonUnderscores(['_']) == [];
    }
  }

  /** Stripping underscores from the ends keeps every other character. */
  lemma StripKeepsNonUnderscores(c: string)
    ensures NonUnderscores(StripBy(c, Chars("_"))) == NonUnderscores(c)
  {
    TrimStartKeepsNonUnderscores(c);
    TrimEndKeepsNonUnderscores(TrimStart(c, Chars("_")));
  }

  /** The characters of a stem other than underscores are the letters and digits of the lower-cased topic, in order. */
  lemma StemKeepsLettersAndDigits(name: string)
    ensures NonUnderscores(Stem(name)) == StemChars(Lower(name))
  {
    var m := MaskOthers(Lower(name));
    CollapseFacts(m);
    StripKeepsNonUnderscores(CollapseUnderscores(m));
    MaskNonUnderscores(Lower(name));
  }

  /** Every stem the function produces is its own sanitised name: sanitising twice changes nothing. */
  lemma SanitizeIdempotent(name: string)
    ensures SanitizeFilename(Stem(name)) == SanitizeFilename(name)
  {
    var stem := Stem(name);
    StemClean(name);
    var lowered := Lower(stem);
    forall i | 0 <= i < |stem| ensures lowered[i] == stem[i] {
      assert IsStemChar(stem[i]) || stem[i] == '_';
    }
    assert lowered == stem;
    var masked := MaskOthers(stem);
    forall i | 0 <= i < |stem| ensures masked[i] == stem[i] {
      assert IsStemChar(stem[i]) || stem[i] == '_';
    }
    assert masked == stem;
    CollapseNoDouble(stem);
    StripByNoEdge(stem, Chars("_"));
  }

  // ---------------------------------------------------------------------------
  // load_topics
  // ---------------------------------------------------------------------------

  /** The line filter: non-blank once stripped, and not starting with `#` as written. */
  predicate KeepLine(line: string) {
    Strip(line) != [] && !StartsWith(line, "#")
  }

  /** What one line contributes: its stripped text if it is kept, nothing otherwise. */
  function Kept(line: string): (topics: seq<string>)
    ensures |topics| <= 1
  {
    if KeepLine(line) then [Strip(line)] else []
  }

  /** `[line.strip() for line in lines if line.strip() and not line.startswith("#")]`. */
  function TopicLines(lines: seq<string>): (topics: seq<string>)
    ensures |topics| <= |lines|
    ensures forall t <- topics :: t != [] && NoEdge(t, Whitespace)
  {
    if lines == [] then []
    else Kept(lines[0]) + TopicLines(lines[1..])
  }

  /** The filter works line by line: the topics of two blocks of lines are those of each, in order. */
  lemma {:induction false} TopicLinesAppend(a: seq<string>, b: seq<string>)
    ensures TopicLines(a + b) == TopicLines(a) + TopicLines(b)
  {
    if a != [] {
      var head := Kept(a[0]);
      assert (a + b)[0] == a[0] && (a + b)[1..] == a[1..] + b;
      TopicLinesAppend(a[1..], b);
      assert TopicLines(a + b) == head + (TopicLines(a[1..]) + TopicLines(b));
      assert TopicLines(a) == head + TopicLines(a[1..]);
      assert head + (TopicLines(a[1..]) + TopicLines(b)) == (head + TopicLines(a[1..])) + TopicLines(b);
    } else {
      assert a + b == b;
    }
  }

  /** A topic comes from a kept line, stripped, and every kept line gives one. */
  lemma {:induction false} TopicLinesMember(lines: seq<string>, t: string)
    ensures t in TopicLines(lines) <==> exists line <- lines :: KeepLine(line) && Strip(line) == t
  {
    if lines != [] {
      TopicLinesMember(lines[1..], t);
      assert lines == [lines[0]] + lines[1..];
      assert forall line <- lines :: line == lines[0] || line in lines[1..];
    }
  }

  /** `load_topics`: a missing file gives no topics; otherwise at most one per line, each non-empty and stripped. */
  function LoadTopics(lines: Option<seq<string>>): (topics: seq<string>)
    ensures lines.None? ==> topics == []
    ensures lines.Some? ==> |topics| <= |lines.value|
    ensures lines.Some? ==> topics == TopicLines(lines.value)
    ensures forall t <- topics :: t != [] && NoEdge(t, Whitespace)
  {
    match lines
    case None => []
    case Some(ls) => TopicLines(ls)
  }

  // ---------------------------------------------------------------------------
  // The generation loop of main
  // ---------------------------------------------------------------------------

  const GENERATION_TEMP: string := "0.7"
  const GENERATION_MAX_TOKENS: nat := 4096

  /** The file a topic's persona is written to. */
  function PersonaFile(topic: string): Key {
    Generated(SanitizeFilename(topic))
  }

  /** `generate_persona`'s request: the topic and the template, at the generation temperature. */
  function TopicRequest(topic: string, template: string): Request {
    InstantiateTemplate(topic, template, GENERATION_TEMP, GENERATION_MAX_TOKENS)
  }

  /** A topic and the file its persona goes to, which depends on the topic alone. */
  datatype Task = Task(topic: string, file: Key)

  function TaskOf(topic: string): Task {
    Task(topic, PersonaFile(topic))
  }

  /** The `Task` of each topic, in order. */
  function Tasks(topics: seq<string>): (tasks: seq<Task>)
    ensures |tasks| == |topics|
    ensures forall j :: 0 <= j < |topics| ==> tasks[j] == TaskOf(topics[j])
  {
    seq(|topics|, j requires 0 <= j < |topics| => TaskOf(topics[j]))
  }

  /** One pass of the loop: skip an existing file; otherwise ask, and write the text unless the call fails. */
  function TopicStep(w: World, task: Task, template: string): World {
    if task.file in w.files then w
    else
      var call := Ask(w, TopicRequest(task.topic, template));
      match call.0
      case Failure => call.1
      case Text(text) => call.1.(files := call.1.files[task.file := text])
  }

  /** The loop from the `i`-th topic on. */
  function TasksFrom(w: World, tasks: seq<Task>, template: string, i: nat): World
    requires i <= |tasks|
    decreases |tasks| - i
  {
    if i == |tasks| then w else TasksFrom(TopicStep(w, tasks[i], template), tasks, template, i + 1)
  }

  /** What the loop of `main` does to the world: every topic in turn; it always reaches the end. */
  function FactorySpec(w: World, topics: seq<string>, template: string): World {
    TasksFrom(w, Tasks(topics), template, 0)
  }

  /** One topic: the body of the `try` in the loop. */
  method GenerateOne(fs: FileStore, client: Client, topic: string, template: string)
    modifies fs, client
    ensures Now(fs, client) == TopicStep(old(Now(fs, client)), TaskOf(topic), template)
  {
    var filename := SanitizeFilename(topic);
    var present := fs.Exists(Generated(filename));
    if present {
      return;
    }
    var reply := client.Create(InstantiateTemplate(topic, template, GENERATION_TEMP, GENERATION_MAX_TOKENS));
    if reply.Failure? {
      return;
    }
    fs.WriteText(Generated(filename), reply.text);
  }

  /** The loop over the topics; a failure is caught and confined to its own topic. */
  method GeneratePersonas(fs: FileStore, client: Client, topics: seq<string>, template: string)
    modifies fs, client
    ensures Now(fs, client) == FactorySpec(old(Now(fs, client)), topics, template)
  {
    ghost var tasks := Tasks(topics);
    ghost var target := TasksFrom(Now(fs, client), tasks, template, 0);
    for i := 0 to |topics|
      invariant TasksFrom(Now(fs, client), tasks, template, i) == target
    {
      GenerateOne(fs, client, topics[i], template);
    }
  }

  /**
   * `main` once the arguments are read: `load_file` strips the template,
   * `load_topics` filters the topic lines; an empty or missing template or
   * an empty topic list stops the script before any call.
   */
  method RunFactory(fs: FileStore, client: Client, template: Option<string>, lines: Option<seq<string>>)
    returns (started: bool)
    modifies fs, client
    ensures started <==> template.Some? && Strip(template.value) != [] && LoadTopics(lines) != []
    ensures started ==> Now(fs, client) == FactorySpec(old(Now(fs, client)), LoadTopics(lines), Strip(template.value))
    ensures !started ==> Now(fs, client) == old(Now(fs, client))
  {
    if template.None? {
      return false;
    }
    var content := Strip(template.value);
    var topics := LoadTopics(lines);
    if content == [] || topics == [] {
      return false;
    }
    GeneratePersonas(fs, client, topics, content);
    started := true;
  }

  // ---------------------------------------------------------------------------
  // The loop, topic by topic
  // ---------------------------------------------------------------------------

  /** One step keeps every existing file and creates at most its own. */
  lemma TopicStepFiles(w: World, task: Task, template: string)
    ensures var t := TopicStep(w, task, template);
      && (forall key :: key in w.files ==> key in t.files && t.files[key] == w.files[key])
      && (forall key :: key in t.files && key !in w.files ==> key == task.file)
  {
    if task.file !in w.files {
      var call := Ask(w, TopicRequest(task.topic, template));
      assert call.1.files == w.files;
    }
  }

  /** One step makes at most its own call, and none when its file exists. */
  lemma TopicStepCalls(w: World, task: Task, template: string)
    ensures var t := TopicStep(w, task, template);
      t.requests == w.requests || (task.file !in w.files && t.requests == w.requests + [TopicRequest(task.topic, template)])
  {
  }

  lemma {:induction false} TasksFromKeepsExisting(w: World, tasks: seq<Task>, template: string, i: nat)
    requires i <= |tasks|
    ensures var r := TasksFrom(w, tasks, template, i);
      forall key :: key in w.files ==> key in r.files && r.files[key] == w.files[key]
    decreases |tasks| - i
  {
    if i < |tasks| {
      var t := TopicStep(w, tasks[i], template);
      var r := TasksFrom(t, tasks, template, i + 1);
      assert TasksFrom(w, tasks, template, i) == r;
      TopicStepFiles(w, tasks[i], template);
      TasksFromKeepsExisting(t, tasks, template, i + 1);
      var f0, f1, f2 := w.files, t.files, r.files;
      forall key | key in f0 ensures key in f2 && f2[key] == f0[key] {
        assert key in f1 && f1[key] == f0[key];
      }
    }
  }

  lemma {:induction false} TasksFromCreates(w: World, tasks: seq<Task>, template: string, i: nat)
    requires i <= |tasks|
    ensures var r := TasksFrom(w, tasks, template, i);
      forall key :: key in r.files && key !in w.files ==> exists j :: i <= j < |tasks| && key == tasks[j].file
    decreases |tasks| - i
  {
    if i < |tasks| {
      var t := TopicStep(w, tasks[i], template);
      var r := TasksFrom(t, tasks, template, i + 1);
      assert TasksFrom(w, tasks, template, i) == r;
      TopicStepFiles(w, tasks[i], template);
      TasksFromCreates(t, tasks, template, i + 1);
      forall key | key in r.files && key !in w.files ensures exists j :: i <= j < |tasks| && key == tasks[j].file {
        if key !in t.files {
          var j :| i + 1 <= j < |tasks| && key == tasks[j].file;
        } else {
          assert key == tasks[i].file;
        }
      }
    }
  }

  lemma {:induction false} TasksFromCalls(w: World, tasks: seq<Task>, template: string, i: nat) returns (extra: seq<Request>)
    requires i <= |tasks|
    ensures var r := TasksFrom(w, tasks, template, i);
      r.requests == w.requests + extra && |extra| <= |tasks| - i
    ensures forall q <- extra :: exists j :: i <= j < |tasks| && q == TopicRequest(tasks[j].topic, template) && tasks[j].file !in w.files
    decreases |tasks| - i
  {
    if i == |tasks| {
      extra := [];
      assert w.requests + [] == w.requests;
    } else {
      var t := TopicStep(w, tasks[i], template);
      assert TasksFrom(w, tasks, template, i) == TasksFrom(t, tasks, template, i + 1);
      TopicStepCalls(w, tasks[i], template);
      var rest := TasksFromCalls(t, tasks, template, i + 1);
      TopicStepFiles(w, tasks[i], template);
      forall q <- rest ensures exists j :: i <= j < |tasks| && q == TopicRequest(tasks[j].topic, template) && tasks[j].file !in w.files {
        var j :| i + 1 <= j < |tasks| && q == TopicRequest(tasks[j].topic, template) && tasks[j].file !in t.files;
      }
      if t.requests == w.requests {
        extra := rest;
      } else {
        var req := TopicRequest(tasks[i].topic, template);
        extra := [req] + rest;
        AppendAssoc(w.requests, [req], rest);
      }
    }
  }

  /** No reply of the script is a failure. */
  predicate AllText(replies: seq<Reply>) {
    forall j :: 0 <= j < |replies| ==> replies[j].Text?
  }

  lemma {:induction false} TasksFromWritesAll(w: World, tasks: seq<Task>, template: string, i: nat)
    requires i <= |tasks| && AllText(w.replies) && |w.replies| >= |tasks| - i
    ensures var r := TasksFrom(w, tasks, template, i);
      forall j :: i <= j < |tasks| ==> tasks[j].file in r.files
    decreases |tasks| - i
  {
    if i < |tasks| {
      var t := TopicStep(w, tasks[i], template);
      var r := TasksFrom(t, tasks, template, i + 1);
      assert TasksFrom(w, tasks, template, i) == r;
      assert AllText(t.replies) && |t.replies| >= |tasks| - (i + 1) by {
        if t.replies != w.replies {
          assert t.replies == w.replies[1..];
        }
      }
      assert tasks[i].file in t.files;
      TasksFromWritesAll(t, tasks, template, i + 1);
      TasksFromKeepsExisting(t, tasks, template, i + 1);
    }
  }

  lemma {:induction false} TasksFromIdle(w: World, tasks: seq<Task>, template: string, i: nat)
    requires i <= |tasks|
    requires forall j :: i <= j < |tasks| ==> tasks[j].file in w.files
    ensures TasksFrom(w, tasks, template, i) == w
    decreases |tasks| - i
  {
    if i < |tasks| {
      TasksFromIdle(w, tasks, template, i + 1);
    }
  }

  // ---------------------------------------------------------------------------
  // What the loop of main guarantees
  // ---------------------------------------------------------------------------

  /** A file that exists before the loop keeps its text: an existing persona is never regenerated. */
  lemma FactoryKeepsExisting(w: World, topics: seq<string>, template: string)
    ensures var r := FactorySpec(w, topics, template);
      forall key :: key in w.files ==> key in r.files && r.files[key] == w.files[key]
  {
    TasksFromKeepsExisting(w, Tasks(topics), template, 0);
  }

  /** The loop creates no file but the persona files of its topics. */
  lemma FactoryCreatesOnlyTopicFiles(w: World, topics: seq<string>, template: string)
    ensures var r := FactorySpec(w, topics, template);
      forall key :: key in r.files && key !in w.files ==> exists t <- topics :: key == PersonaFile(t)
  {
    var tasks := Tasks(topics);
    TasksFromCreates(w, tasks, template, 0);
    var r := FactorySpec(w, topics, template);
    forall key | key in r.files && key !in w.files ensures exists t <- topics :: key == PersonaFile(t) {
      var j :| 0 <= j < |tasks| && key == tasks[j].file;
      assert topics[j] in topics;
    }
  }

  /**
   * The loop only appends to the request log: at most one call per topic,
   * each the instantiation of the template for one of its topics whose file
   * did not exist when the loop started. The last clause, that a topic whose
   * file exists costs no call at all, is a corollary of the one before, since
   * `TopicRequest` is injective in its topic; it is stated for the reader.
   */
  lemma FactoryCalls(w: World, topics: seq<string>, template: string) returns (extra: seq<Request>)
    ensures var r := FactorySpec(w, topics, template);
      r.requests == w.requests + extra && |extra| <= |topics|
    ensures forall q <- extra :: exists t <- topics :: q == TopicRequest(t, template) && PersonaFile(t) !in w.files
    ensures forall t <- topics :: PersonaFile(t) in w.files ==> TopicRequest(t, template) !in extra
  {
    var tasks := Tasks(topics);
    extra := TasksFromCalls(w, tasks, template, 0);
    forall q <- extra ensures exists t <- topics :: q == TopicRequest(t, template) && PersonaFile(t) !in w.files {
      var j :| 0 <= j < |tasks| && q == TopicRequest(tasks[j].topic, template) && tasks[j].file !in w.files;
      assert topics[j] in topics;
    }
  }

  /** With a text reply for every topic, every topic ends with its persona file. */
  lemma FactoryWritesAll(w: World, topics: seq<string>, template: string)
    requires AllText(w.replies) && |w.replies| >= |topics|
    ensures var r := FactorySpec(w, topics, template);
      forall t <- topics :: PersonaFile(t) in r.files
  {
    var tasks := Tasks(topics);
    TasksFromWritesAll(w, tasks, template, 0);
    forall t <- topics ensures PersonaFile(t) in FactorySpec(w, topics, template).files {
      var j :| 0 <= j < |topics| && topics[j] == t;
      assert tasks[j].file == PersonaFile(t);
    }
  }

  /**
   * A failed call affects only its own topic: the files are as they were,
   * the loop goes on, and with text replies for the rest every later topic
   * still gets its persona file.
   */
  lemma FailureIsolated(w: World, topics: seq<string>, template: string, i: nat)
    requires i < |topics| && PersonaFile(topics[i]) !in w.files
    requires w.replies != [] && w.replies[0].Failure?
    requires AllText(w.replies[1..]) && |w.replies| - 1 >= |topics| - (i + 1)
    ensures var t := TopicStep(w, TaskOf(topics[i]), template);
      t.files == w.files && t.replies == w.replies[1..]
    ensures var r := TasksFrom(w, Tasks(topics), template, i);
      forall j :: i < j < |topics| ==> PersonaFile(topics[j]) in r.files
  {
    var tasks := Tasks(topics);
    var t := TopicStep(w, tasks[i], template);
    assert TasksFrom(w, tasks, template, i) == TasksFrom(t, tasks, template, i + 1);
    TasksFromWritesAll(t, tasks, template, i + 1);
  }

  /** When every topic already has its persona file, the loop makes no call and changes nothing. */
  lemma FactoryIdle(w: World, topics: seq<string>, template: string)
    requires forall t <- topics :: PersonaFile(t) in w.files
    ensures FactorySpec(w, topics, template) == w
  {
    var tasks := Tasks(topics);
    forall j | 0 <= j < |tasks| ensures tasks[j].file in w.files {
      assert topics[j] in topics;
    }
    TasksFromIdle(w, tasks, template, 0);
  }

  /**
   * Resumability: after a loop that got a text reply for every topic, a
   * second loop over the same topics, with any replies, makes no call and
   * changes nothing.
   */
  lemma RegenerationIsIdle(w: World, topics: seq<string>, template: string, replies: seq<Reply>, requests: seq<Request>)
    requires AllText(w.replies) && |w.replies| >= |topics|
    ensures var again := World(FactorySpec(w, topics, template).files, replies, requests);
      FactorySpec(again, topics, template) == again
  {
    FactoryWritesAll(w, topics, template);
    FactoryIdle(World(FactorySpec(w, topics, template).files, replies, requests), topics, template);
  }
}

=== FILE: gauntlet.dfy ===
/**
 * The expression-level parts of the review engine (main.py): its constants,
 * the combo folder label, the validity of a combo tuple, the persona prompt
 * loader, the shared context and the synthesiser's message.
 */
module Gauntlet {
  import opened Strings
  import opened Store

  datatype Option<T> = None | Some(value: T)

  const PERSONA_ORDER: seq<string> := ["dr_silas_vane", "prof_amara_kito", "dr_julian_rex"]

  /** Short labels used in combo folder names. */
  const PERSONA_SHORT: map<string, string> :=
    map["dr_silas_vane" := "silas", "prof_amara_kito" := "amara", "dr_julian_rex" := "julian"]

  /** Run i (1-based) samples at TEMPERATURES[i - 1]; kept as the text Python prints for each. */
  const TEMPERATURES: seq<string> := ["0.3", "0.7", "1.0"]
  const SYNTH_TEMP: string := "0.5"
  const REVIEW_MAX_TOKENS: nat := 4096
  const SYNTH_MAX_TOKENS: nat := 8192

  const SYSTEM_PROMPT_HEADER: string := "**System Prompt:**"
  const SYNTHESIZER: string := "synthesizer"

  /** `{persona: {run: text}}` as phase 1 returns it and phase 2 reads it. */
  type Reviews = map<string, map<int, string>>

  predicate IsRun(i: int) {
    1 <= i <= |TEMPERATURES|
  }

  /** A combo as `itertools.product` yields it: one run index per persona, in persona order. */
  predicate IsCombo(combo: seq<int>) {
    |combo| == |PERSONA_ORDER| && forall k :: 0 <= k < |combo| ==> IsRun(combo[k])
  }

  predicate HasReview(reviews: Reviews, persona: string, run: int) {
    persona in reviews && run in reviews[persona]
  }

  // ---------------------------------------------------------------------------
  // load_persona
  // ---------------------------------------------------------------------------

  /**
   * The text part of `load_persona`: strip, drop one leading system-prompt
   * header if present, strip again.
   */
  function StripPersonaHeader(raw: string): (prompt: string)
    ensures NoEdge(prompt, Whitespace)
    ensures !StartsWith(Strip(raw), SYSTEM_PROMPT_HEADER) ==> prompt == Strip(raw)
    ensures StartsWith(Strip(raw), SYSTEM_PROMPT_HEADER) ==> |prompt| <= |Strip(raw)| - |SYSTEM_PROMPT_HEADER|
    ensures StartsWith(raw, SYSTEM_PROMPT_HEADER) ==> prompt == Strip(raw[|SYSTEM_PROMPT_HEADER|..])
  {
    var text := Strip(raw);
    var prompt := if StartsWith(text, SYSTEM_PROMPT_HEADER) then Strip(text[|SYSTEM_PROMPT_HEADER|..]) else text;
    assert StartsWith(raw, SYSTEM_PROMPT_HEADER) ==> prompt == Strip(raw[|SYSTEM_PROMPT_HEADER|..]) by {
      if StartsWith(raw, SYSTEM_PROMPT_HEADER) {
        HeaderAtStart(raw);
      }
    }
    prompt
  }

  /** A file that starts with the header still starts with it once stripped, followed by the same text up to whitespace. */
  lemma HeaderAtStart(raw: string)
    requires StartsWith(raw, SYSTEM_PROMPT_HEADER)
    ensures StartsWith(Strip(raw), SYSTEM_PROMPT_HEADER)
    ensures Strip(Strip(raw)[|SYSTEM_PROMPT_HEADER|..]) == Strip(raw[|SYSTEM_PROMPT_HEADER|..])
  {
    var header := SYSTEM_PROMPT_HEADER;
    var body := raw[|header|..];
    SplitAt(raw, |header|);
    var x, y := StripSplit(body, Whitespace);
    var r := Strip(body);
    StripAroundHeader([], x, r, y);
    NoLead(raw, header, body);
    HeadThenRest(header, x + r);
    StripAfterSpace(x, r);
  }

  lemma NoLead(raw: string, head: string, rest: string)
    requires |head| <= |raw| && raw == raw[..|head|] + rest && raw[..|head|] == head
    ensures [] + head + rest == raw
  {
  }

  lemma HeadThenRest(head: string, rest: string)
    ensures StartsWith(head + rest, head) && (head + rest)[|head|..] == rest
  {
  }

  /** Text already stripped and without the header is returned as it is. */
  lemma StripPersonaHeaderKeepsPlainPrompt(text: string)
    requires NoEdge(text, Whitespace) && !StartsWith(text, SYSTEM_PROMPT_HEADER)
    ensures StripPersonaHeader(text) == text
  {
    StripNoEdge(text);
  }

  /** With the header right at the start of the stripped text, the prompt is the rest, stripped. */
  lemma HeaderThen(raw: string, rest: string)
    requires Strip(raw) == SYSTEM_PROMPT_HEADER + rest
    ensures StripPersonaHeader(raw) == Strip(rest)
  {
    var text := Strip(raw);
    assert text[..|SYSTEM_PROMPT_HEADER|] == SYSTEM_PROMPT_HEADER;
    assert text[|SYSTEM_PROMPT_HEADER|..] == rest;
  }

  /** Stripping a file that reads header, whitespace, text, whitespace keeps the header and the text. */
  lemma StripAroundHeader(lead: string, x: string, r: string, y: string)
    requires AllDropped(lead, Whitespace) && AllDropped(x, Whitespace) && AllDropped(y, Whitespace) && NoEdge(r, Whitespace)
    requires r == [] ==> x == []
    ensures Strip(lead + SYSTEM_PROMPT_HEADER + (x + r + y)) == SYSTEM_PROMPT_HEADER + (x + r)
  {
    var header := SYSTEM_PROMPT_HEADER;
    var kept := header + (x + r);
    assert kept[0] == '*';
    assert kept[|kept| - 1] == if r == [] then '*' else r[|r| - 1];
    assert lead + header + (x + r + y) == lead + kept + y;
    StripByOf(lead, kept, y, Whitespace);
  }

  /**
   * A persona file that reads `**System Prompt:**` followed by the prompt,
   * with any whitespace before the header: the prompt is what follows the
   * header, stripped. Exactly one header is removed; a second one is kept.
   */
  lemma StripPersonaHeaderRemovesOneHeader(lead: string, body: string)
    requires AllDropped(lead, Whitespace)
    ensures StripPersonaHeader(lead + SYSTEM_PROMPT_HEADER + body) == Strip(body)
  {
    var x, y := StripSplit(body, Whitespace);
    var r := Strip(body);
    StripAroundHeader(lead, x, r, y);
    HeaderThen(lead + SYSTEM_PROMPT_HEADER + body, x + r);
    StripAfterSpace(x, r);
  }

  /** `load_persona(name)`: None when `personas/<name>.md` is missing (FileNotFoundError). */
  function LoadPersona(files: Files, name: string): (prompt: Option<string>)
    ensures prompt.Some? <==> PersonaPrompt(name) in files
    ensures prompt.Some? ==> NoEdge(prompt.value, Whitespace)
    ensures prompt.Some? ==> prompt.value == StripPersonaHeader(files[PersonaPrompt(name)])
  {
    if PersonaPrompt(name) in files then Some(StripPersonaHeader(files[PersonaPrompt(name)])) else None
  }

  /** The prompt of `persona` as loaded from `files`, or "" when it cannot be loaded. */
  function PromptOf(files: Files, persona: string): (prompt: string)
    ensures PersonaPrompt(persona) in files ==> LoadPersona(files, persona) == Some(prompt)
  {
    match LoadPersona(files, persona)
    case Some(prompt) => prompt
    case None => ""
  }

  /** The three personas are distinct. */
  lemma OrderDistinct()
    ensures forall i, j :: 0 <= i < j < |PERSONA_ORDER| ==> PERSONA_ORDER[i] != PERSONA_ORDER[j]
  {
    assert PERSONA_ORDER[0] == "dr_silas_vane";
    assert PERSONA_ORDER[1] == "prof_amara_kito";
    assert PERSONA_ORDER[2] == "dr_julian_rex";
    assert "dr_silas_vane"[3] != "dr_julian_rex"[3];
  }

  /** The `k`-th persona is not among the later ones. */
  lemma SplitOrder(k: nat)
    requires k < |PERSONA_ORDER|
    ensures PERSONA_ORDER[k..] == [PERSONA_ORDER[k]] + PERSONA_ORDER[k + 1..]
    ensures PERSONA_ORDER[k] !in PERSONA_ORDER[k + 1..]
  {
    OrderDistinct();
    assert PERSONA_ORDER[k..] == [PERSONA_ORDER[k]] + PERSONA_ORDER[k + 1..];
  }

  // ---------------------------------------------------------------------------
  // build_context and the synthesiser's message
  // ---------------------------------------------------------------------------

  const CALL_HEADING: string := "=== SOLICITATION / CALL FOR PROPOSALS ===\n"
  const PROPOSAL_HEADING: string := "=== MY PROPOSAL ===\n"
  const REVIEWS_HEADING: string := "=== EXPERT REVIEWS ===\n"

  /** `build_context`: labelled concatenation of the two source documents. */
  function BuildContext(callText: string, proposalText: string): string {
    CALL_HEADING + callText + "\n\n" + PROPOSAL_HEADING + proposalText + "\n"
  }

  /** Knowing where the call text ends, the context gives back both documents. */
  lemma BuildContextRecoverable(c1: string, p1: string, c2: string, p2: string)
    requires |c1| == |c2| && BuildContext(c1, p1) == BuildContext(c2, p2)
    ensures c1 == c2 && p1 == p2
  {
    var x, y := BuildContext(c1, p1), BuildContext(c2, p2);
    var h := |CALL_HEADING|;
    assert x[h..h + |c1|] == c1;
    assert y[h..h + |c2|] == c2;
    var start := h + |c1| + 2 + |PROPOSAL_HEADING|;
    assert |p1| == |p2|;
    assert x[start..start + |p1|] == p1;
    assert y[start..start + |p2|] == p2;
  }

  /** The `user_msg` of phase 2, written as the script writes it. */
  function SynthesisMessage(callText: string, proposalText: string, reviewBlock: string): string {
    CALL_HEADING + callText + "\n\n" + PROPOSAL_HEADING + proposalText + "\n\n"
    + REVIEWS_HEADING + reviewBlock + "\n"
  }

  /** The synthesiser sees the reviewers' context, unchanged, followed by the reviews. */
  lemma {:induction false} SynthesisMessageExtendsContext(callText: string, proposalText: string, reviewBlock: string)
    ensures SynthesisMessage(callText, proposalText, reviewBlock)
         == BuildContext(callText, proposalText) + "\n" + REVIEWS_HEADING + reviewBlock + "\n"
  {
  }

  /** `=== REVIEW BY <PERSONA IN CAPITALS> (run r, temp t) ===` and a newline. */
  function ReviewHeading(persona: string, run: int): string
    requires IsRun(run)
  {
    "=== REVIEW BY " + Upper(ReplaceChar(persona, '_', ' ')) + " (run " + IntToString(run)
    + ", temp " + TEMPERATURES[run - 1] + ") ===\n"
  }

  /** One tagged review per (persona, run) pair of `zip(personas, combo)`. */
  function TaggedReviews(reviews: Reviews, personas: seq<string>, combo: seq<int>): (tagged: seq<string>)
    requires forall k :: 0 <= k < |personas| && k < |combo| ==> IsRun(combo[k])
    requires forall k :: 0 <= k < |personas| && k < |combo| ==> personas[k] in reviews && combo[k] in reviews[personas[k]]
    ensures |tagged| == if |personas| < |combo| then |personas| else |combo|
  {
    var n := if |personas| < |combo| then |personas| else |combo|;
    seq(n, k requires 0 <= k < n => ReviewHeading(personas[k], combo[k]) + reviews[personas[k]][combo[k]])
  }

  /** `review_block`: the tagged reviews of a combo, separated by blank lines. */
  function ReviewBlock(reviews: Reviews, combo: seq<int>): string
    requires IsCombo(combo)
    requires forall k :: 0 <= k < |combo| ==> PERSONA_ORDER[k] in reviews && combo[k] in reviews[PERSONA_ORDER[k]]
  {
    Join("\n\n", TaggedReviews(reviews, PERSONA_ORDER, combo))
  }

  /** `name.replace('_', ' ').upper()` is `caption`, checked character by character. */
  lemma CaptionOf(name: string, caption: string)
    requires |name| == |caption|
    requires forall i :: 0 <= i < |name| ==> AsciiUpper(if name[i] == '_' then ' ' else name[i]) == caption[i]
    ensures Upper(ReplaceChar(name, '_', ' ')) == caption
  {
  }

  /** The name each persona's reviews are tagged with. */
  lemma PersonaCaptions()
    ensures Upper(ReplaceChar(PERSONA_ORDER[0], '_', ' ')) == "DR SILAS VANE"
    ensures Upper(ReplaceChar(PERSONA_ORDER[1], '_', ' ')) == "PROF AMARA KITO"
    ensures Upper(ReplaceChar(PERSONA_ORDER[2], '_', ' ')) == "DR JULIAN REX"
  {
    CaptionOf("dr_silas_vane", "DR SILAS VANE");
    CaptionOf("prof_amara_kito", "PROF AMARA KITO");
    CaptionOf("dr_julian_rex", "DR JULIAN REX");
  }

  /** Each persona's review is tagged with its name in capitals, its run and the run's temperature. */
  lemma ReviewHeadings(run: int)
    requires IsRun(run)
    ensures ReviewHeading(PERSONA_ORDER[0], run)
         == "=== REVIEW BY " + "DR SILAS VANE" + " (run " + IntToString(run) + ", temp " + TEMPERATURES[run - 1] + ") ===\n"
    ensures ReviewHeading(PERSONA_ORDER[1], run)
         == "=== REVIEW BY " + "PROF AMARA KITO" + " (run " + IntToString(run) + ", temp " + TEMPERATURES[run - 1] + ") ===\n"
    ensures ReviewHeading(PERSONA_ORDER[2], run)
         == "=== REVIEW BY " + "DR JULIAN REX" + " (run " + IntToString(run) + ", temp " + TEMPERATURES[run - 1] + ") ===\n"
  {
    PersonaCaptions();
  }

  /**
   * The review block of a combo holds its three reviews in persona order,
   * each after its heading, separated by blank lines.
   */
  lemma ReviewBlockOfTriple(reviews: Reviews, combo: seq<int>)
    requires IsCombo(combo)
    requires forall k :: 0 <= k < |combo| ==> PERSONA_ORDER[k] in reviews && combo[k] in reviews[PERSONA_ORDER[k]]
    ensures ReviewBlock(reviews, combo)
         == (ReviewHeading(PERSONA_ORDER[0], combo[0]) + reviews[PERSONA_ORDER[0]][combo[0]]) + "\n\n"
            + ((ReviewHeading(PERSONA_ORDER[1], combo[1]) + reviews[PERSONA_ORDER[1]][combo[1]]) + "\n\n"
            + (ReviewHeading(PERSONA_ORDER[2], combo[2]) + reviews[PERSONA_ORDER[2]][combo[2]]))
  {
    var tagged := TaggedReviews(reviews, PERSONA_ORDER, combo);
    assert tagged == [tagged[0], tagged[1], tagged[2]];
    JoinThree("\n\n", tagged[0], tagged[1], tagged[2]);
  }

  // ---------------------------------------------------------------------------
  // combo_label
  // ---------------------------------------------------------------------------

  /** `f"{PERSONA_SHORT[p]}_{r}"` for each pair of `zip(personas, combo)`. */
  function LabelParts(personas: seq<string>, combo: seq<int>): (parts: seq<string>)
    requires forall p <- personas :: p in PERSONA_SHORT
    ensures |parts| == if |personas| < |combo| then |personas| else |combo|
  {
    var n := if |personas| < |combo| then |personas| else |combo|;
    seq(n, k requires 0 <= k < n => PERSONA_SHORT[personas[k]] + "_" + IntToString(combo[k]))
  }

  /** `combo_label`: e.g. [1, 2, 3] gives `silas_1__amara_2__julian_3`. */
  function ComboLabel(combo: seq<int>): string {
    Join("__", LabelParts(PERSONA_ORDER, combo))
  }

  lemma JoinThree(sep: string, p0: string, p1: string, p2: string)
    ensures Join(sep, [p0, p1, p2]) == p0 + sep + (p1 + sep + p2)
  {
    assert [p1, p2][1..] == [p2];
    assert Join(sep, [p1, p2]) == p1 + sep + p2;
    assert [p0, p1, p2][1..] == [p1, p2];
  }

  lemma ShortNames()
    ensures PERSONA_SHORT[PERSONA_ORDER[0]] == "silas"
    ensures PERSONA_SHORT[PERSONA_ORDER[1]] == "amara"
    ensures PERSONA_SHORT[PERSONA_ORDER[2]] == "julian"
  {
    assert PERSONA_ORDER[0] == "dr_silas_vane";
    assert PERSONA_ORDER[1] == "prof_amara_kito";
    assert PERSONA_ORDER[2] == "dr_julian_rex";
    assert PERSONA_SHORT["dr_silas_vane"] == "silas";
    assert PERSONA_SHORT["prof_amara_kito"] == "amara";
    assert PERSONA_SHORT["dr_julian_rex"] == "julian";
  }

  lemma LabelPartsOfTriple(combo: seq<int>)
    requires |combo| == 3
    ensures LabelParts(PERSONA_ORDER, combo)
         == ["silas_" + IntToString(combo[0]), "amara_" + IntToString(combo[1]), "julian_" + IntToString(combo[2])]
  {
    var parts := LabelParts(PERSONA_ORDER, combo);
    ShortNames();
    assert parts[0] == "silas" + "_" + IntToString(combo[0]);
    assert parts[1] == "amara" + "_" + IntToString(combo[1]);
    assert parts[2] == "julian" + "_" + IntToString(combo[2]);
    assert |parts| == 3;
    assert "silas" + "_" + IntToString(combo[0]) == "silas_" + IntToString(combo[0]);
    assert "amara" + "_" + IntToString(combo[1]) == "amara_" + IntToString(combo[1]);
    assert "julian" + "_" + IntToString(combo[2]) == "julian_" + IntToString(combo[2]);
  }

  lemma RegroupLabel(a: string, b: string, c: string)
    ensures ("silas_" + a) + "__" + (("amara_" + b) + "__" + ("julian_" + c))
         == "silas_" + (a + ("__amara_" + (b + ("__julian_" + c))))
  {
  }

  /** The label of a full combo, written out. */
  lemma ComboLabelOfTriple(combo: seq<int>)
    requires |combo| == 3
    ensures ComboLabel(combo)
         == "silas_" + (IntToString(combo[0]) + ("__amara_" + (IntToString(combo[1])
            + ("__julian_" + IntToString(combo[2])))))
  {
    var a, b, c := IntToString(combo[0]), IntToString(combo[1]), IntToString(combo[2]);
    LabelPartsOfTriple(combo);
    JoinThree("__", "silas_" + a, "amara_" + b, "julian_" + c);
    RegroupLabel(a, b, c);
  }

  lemma CancelPrefix(p: string, s: string, t: string)
    requires p + s == p + t
    ensures s == t
  {
    assert s == (p + s)[|p|..];
    assert t == (p + t)[|p|..];
  }

  /** If `x` has no `_` and `s` starts with one, `x + s` has its first `_` at `|x|`. */
  lemma UnderscoreAfterPrefix(x: string, s: string, y: string, t: string)
    requires x + s == y + t && |x| < |y|
    requires s != [] && s[0] == '_'
    ensures '_' in y
  {
    assert y[|x|] == (y + t)[|x|] == (x + s)[|x|] == '_';
  }

  /** Two strings free of `_`, each followed by text that starts with `_`, can be told apart. */
  lemma SplitAtUnderscore(x: string, s: string, y: string, t: string)
    requires x + s == y + t
    requires '_' !in x && '_' !in y
    requires s != [] && s[0] == '_' && t != [] && t[0] == '_'
    ensures x == y && s == t
  {
    if |x| < |y| {
      UnderscoreAfterPrefix(x, s, y, t);
      assert false;
    } else if |y| < |x| {
      UnderscoreAfterPrefix(y, t, x, s);
      assert false;
    }
    assert x == (x + s)[..|x|];
    assert y == (y + t)[..|y|];
    CancelPrefix(x, s, t);
  }

  /** Distinct full combos get distinct folder labels. */
  lemma ComboLabelInjective(c1: seq<int>, c2: seq<int>)
    requires |c1| == 3 && |c2| == 3
    requires ComboLabel(c1) == ComboLabel(c2)
    ensures c1 == c2
  {
    ComboLabelOfTriple(c1);
    ComboLabelOfTriple(c2);
    var a1, b1, d1 := IntToString(c1[0]), IntToString(c1[1]), IntToString(c1[2]);
    var a2, b2, d2 := IntToString(c2[0]), IntToString(c2[1]), IntToString(c2[2]);
    CancelPrefix("silas_", a1 + ("__amara_" + (b1 + ("__julian_" + d1))), a2 + ("__amara_" + (b2 + ("__julian_" + d2))));
    SplitAtUnderscore(a1, "__amara_" + (b1 + ("__julian_" + d1)), a2, "__amara_" + (b2 + ("__julian_" + d2)));
    CancelPrefix("__amara_", b1 + ("__julian_" + d1), b2 + ("__julian_" + d2));
    SplitAtUnderscore(b1, "__julian_" + d1, b2, "__julian_" + d2);
    CancelPrefix("__julian_", d1, d2);
    IntToStringInjective(c1[0], c2[0]);
    IntToStringInjective(c1[1], c2[1]);
    IntToStringInjective(c1[2], c2[2]);
  }
}

=== FILE: phase1.dfy ===
/**
 * Phase 1 of the review engine (`phase1` in main.py): for each persona in
 * order, load its prompt, then for each run reuse a valid cached review or ask
 * the service for a new one and write it to its file. A failed call ends the
 * whole run with whatever has been written so far.
 *
 * `Phase1Spec` is the reference definition, a fold over the same work list as
 * the script's two loops; `RunPhase1` is the script's loops, proved equal to
 * it; the lemmas state what the fold guarantees.
 */
module Phase1 {
  import opened Strings
  import opened Store
  import opened Service
  import opened Gauntlet

  /** One of the 9 review files phase 1 produces. */
  predicate IsLeafKey(key: Key) {
    key.ExpertReview? && key.persona in PERSONA_ORDER && IsRun(key.run)
  }

  /** The request for run `run` of a persona: its prompt, the context, the run's temperature. */
  function ReviewRequest(prompt: string, context: string, run: int): Request
    requires IsRun(run)
  {
    Message(prompt, context, TEMPERATURES[run - 1], REVIEW_MAX_TOKENS)
  }

  /** One pass of the inner loop body, for `run_<run>.md` of `persona`. */
  function ReviewStep(s: Progress, persona: string, prompt: string, context: string, run: int): Progress
    requires IsRun(run)
  {
    var key := ExpertReview(persona, run);
    if IsValidOutput(s.world.files, key) then s
    else
      var call := Ask(s.world, ReviewRequest(prompt, context, run));
      match call.0
      case Failure => Progress(call.1, false)
      case Text(text) => Progress(call.1.(files := call.1.files[key := text]), true)
  }

  /** The inner loop from `run` on. */
  function RunsFrom(s: Progress, persona: string, prompt: string, context: string, run: int): Progress
    requires 1 <= run
    decreases |TEMPERATURES| + 1 - run
  {
    if !s.running || run > |TEMPERATURES| then s
    else RunsFrom(ReviewStep(s, persona, prompt, context, run), persona, prompt, context, run + 1)
  }

  /** The outer loop from the `k`-th persona on; a missing persona file ends the run. */
  function PersonasFrom(s: Progress, context: string, k: nat): Progress
    decreases |PERSONA_ORDER| - k
  {
    if !s.running || k >= |PERSONA_ORDER| then s
    else
      match LoadPersona(s.world.files, PERSONA_ORDER[k])
      case None => s.(running := false)
      case Some(prompt) => PersonasFrom(RunsFrom(s, PERSONA_ORDER[k], prompt, context, 1), context, k + 1)
  }

  /** What `phase1(client, context)` does to the world, and whether it returns. */
  function Phase1Spec(w: World, context: string): Progress {
    PersonasFrom(Progress(w, true), context, 0)
  }

  // ---------------------------------------------------------------------------
  // The script's loops
  // ---------------------------------------------------------------------------

  /** `entry` holds runs 1 .. `upto` - 1 of `persona`, each the text of its review file. */
  ghost predicate Filled(entry: map<int, string>, files: Files, persona: string, upto: int) {
    && (forall i :: i in entry <==> 1 <= i < upto)
    && (forall i :: 1 <= i < upto ==> ExpertReview(persona, i) in files && entry[i] == files[ExpertReview(persona, i)])
  }

  /**
   * The dict `phase1` returns: an entry per persona, holding runs 1..3, each
   * the text now stored in `expert_reviews/<persona>/run_<i>.md`.
   */
  ghost predicate ReviewsMatch(reviews: Reviews, files: Files) {
    && (forall p :: p in reviews <==> p in PERSONA_ORDER)
    && (forall p <- PERSONA_ORDER :: Filled(reviews[p], files, p, |TEMPERATURES| + 1))
  }

  lemma FilledKept(entry: map<int, string>, f1: Files, f2: Files, persona: string, upto: int)
    requires Filled(entry, f1, persona, upto)
    requires forall i :: 1 <= i < upto ==> Same(f1, f2, ExpertReview(persona, i))
    ensures Filled(entry, f2, persona, upto)
  {
    forall i | 1 <= i < upto ensures ExpertReview(persona, i) in f2 && entry[i] == f2[ExpertReview(persona, i)] {
      assert Same(f1, f2, ExpertReview(persona, i));
    }
  }

  lemma FilledExtend(entry: map<int, string>, files: Files, persona: string, run: int, text: string)
    requires 1 <= run && Filled(entry, files, persona, run)
    requires ExpertReview(persona, run) in files && files[ExpertReview(persona, run)] == text
    ensures Filled(entry[run := text], files, persona, run + 1)
  {
    var next := entry[run := text];
    forall i ensures i in next <==> 1 <= i < run + 1 {
      assert i in next <==> i in entry || i == run;
    }
    forall i | 1 <= i < run + 1 ensures ExpertReview(persona, i) in files && next[i] == files[ExpertReview(persona, i)] {
      if i < run {
        assert next[i] == entry[i];
      }
    }
  }

  /**
   * Writing only the review files of the `k`-th persona keeps the entries of
   * the personas before it, and the new entry completes the first `k + 1`.
   */
  lemma EarlierKept(reviews: Reviews, entry: map<int, string>, f1: Files, f2: Files, k: nat)
    requires k < |PERSONA_ORDER| && forall p :: p in reviews <==> p in PERSONA_ORDER
    requires forall j :: 0 <= j < k ==> Filled(reviews[PERSONA_ORDER[j]], f1, PERSONA_ORDER[j], |TEMPERATURES| + 1)
    requires forall key :: !LaterRun(key, PERSONA_ORDER[k], 1) ==> Same(f1, f2, key)
    requires Filled(entry, f2, PERSONA_ORDER[k], |TEMPERATURES| + 1)
    ensures var next := reviews[PERSONA_ORDER[k] := entry];
      forall j :: 0 <= j < k + 1 ==> Filled(next[PERSONA_ORDER[j]], f2, PERSONA_ORDER[j], |TEMPERATURES| + 1)
  {
    OrderDistinct();
    var persona := PERSONA_ORDER[k];
    var next := reviews[persona := entry];
    forall j | 0 <= j < k + 1 ensures Filled(next[PERSONA_ORDER[j]], f2, PERSONA_ORDER[j], |TEMPERATURES| + 1) {
      if j < k {
        var q := PERSONA_ORDER[j];
        assert q != persona;
        forall i | 1 <= i < |TEMPERATURES| + 1 ensures Same(f1, f2, ExpertReview(q, i)) {
          assert !LaterRun(ExpertReview(q, i), persona, 1);
        }
        FilledKept(reviews[q], f1, f2, q, |TEMPERATURES| + 1);
        assert next[q] == reviews[q];
      }
    }
  }

  /**
   * The body of the inner loop of `phase1`: reuse `run_<run>.md` if it is
   * valid, otherwise ask for a review and write it. It changes the store and
   * the client as `ReviewStep` says; unless the call failed, `text` is what
   * the file now holds.
   */
  method ReviewOnce(fs: FileStore, client: Client, persona: string, prompt: string, context: string, run: int)
    returns (text: string, ok: bool)
    requires IsRun(run)
    modifies fs, client
    ensures Progress(Now(fs, client), ok) == ReviewStep(Progress(old(Now(fs, client)), true), persona, prompt, context, run)
    ensures ok ==> ExpertReview(persona, run) in fs.files && fs.files[ExpertReview(persona, run)] == text
  {
    var key := ExpertReview(persona, run);
    var valid := fs.IsValid(key);
    if valid {
      text := fs.ReadText(key);
      ok := true;
    } else {
      var reply := client.Create(ReviewRequest(prompt, context, run));
      if reply.Failure? {
        return "", false;
      }
      text := reply.text;
      fs.WriteText(key, text);
      ok := true;
    }
  }

  /**
   * The inner loop of `phase1` for one persona: runs 1..3 in turn, filling
   * `reviews[persona]`, which starts empty. It changes the store and the
   * client as `RunsFrom` says; on success the entry holds the three runs,
   * each the text of its file.
   */
  method RunReviews(fs: FileStore, client: Client, persona: string, prompt: string, context: string)
    returns (entry: map<int, string>, ok: bool)
    modifies fs, client
    ensures Progress(Now(fs, client), ok) == RunsFrom(Progress(old(Now(fs, client)), true), persona, prompt, context, 1)
    ensures ok ==> Filled(entry, fs.files, persona, |TEMPERATURES| + 1)
  {
    ghost var target := RunsFrom(Progress(Now(fs, client), true), persona, prompt, context, 1);
    entry := map[];
    var run := 1;
    while run <= |TEMPERATURES|
      invariant 1 <= run <= |TEMPERATURES| + 1
      invariant Filled(entry, fs.files, persona, run)
      invariant RunsFrom(Progress(Now(fs, client), true), persona, prompt, context, run) == target
    {
      ghost var cur := Progress(Now(fs, client), true);
      ghost var oldFiles := fs.files;
      assert RunsFrom(cur, persona, prompt, context, run)
          == RunsFrom(ReviewStep(cur, persona, prompt, context, run), persona, prompt, context, run + 1);
      ReviewStepFrame(cur, persona, prompt, context, run);
      var text, ok1 := ReviewOnce(fs, client, persona, prompt, context, run);
      if !ok1 {
        return entry, false;
      }
      FilledKept(entry, oldFiles, fs.files, persona, run);
      FilledExtend(entry, fs.files, persona, run, text);
      entry := entry[run := text];
      run := run + 1;
    }
    ok := true;
  }

  /**
   * One pass of the outer loop: load the `k`-th persona and review the paper
   * with it three times. `ok` is false when the persona file is missing or a
   * call failed, which ends the run.
   */
  method ReviewPersona(fs: FileStore, client: Client, context: string, k: nat) returns (entry: map<int, string>, ok: bool)
    requires k < |PERSONA_ORDER|
    modifies fs, client
    ensures PersonasFrom(Progress(old(Now(fs, client)), true), context, k) == PersonasFrom(Progress(Now(fs, client), ok), context, k + 1)
    ensures forall key :: !LaterRun(key, PERSONA_ORDER[k], 1) ==> Same(old(fs.files), fs.files, key)
    ensures ok ==> Filled(entry, fs.files, PERSONA_ORDER[k], |TEMPERATURES| + 1)
  {
    var persona := PERSONA_ORDER[k];
    ghost var before := Progress(Now(fs, client), true);
    var present := fs.Exists(PersonaPrompt(persona));
    if !present {
      return map[], false;
    }
    var raw := fs.ReadText(PersonaPrompt(persona));
    var prompt := StripPersonaHeader(raw);
    assert PersonasFrom(before, context, k) == PersonasFrom(RunsFrom(before, persona, prompt, context, 1), context, k + 1);
    entry, ok := RunReviews(fs, client, persona, prompt, context);
    RunsFromFrame(before, persona, prompt, context, 1);
  }

  /**
   * `phase1`: the script's loop over the personas. It changes the store and
   * the client exactly as `Phase1Spec` says, and when it returns normally the
   * dict it returns matches the review files.
   */
  method RunPhase1(fs: FileStore, client: Client, context: string) returns (reviews: Reviews, completed: bool)
    modifies fs, client
    ensures Progress(Now(fs, client), completed) == Phase1Spec(old(Now(fs, client)), context)
    ensures completed ==> ReviewsMatch(reviews, fs.files)
  {
    ghost var target := Phase1Spec(Now(fs, client), context);
    reviews := map p | p in PERSONA_ORDER :: map[];
    var k := 0;
    while k < |PERSONA_ORDER|
      invariant 0 <= k <= |PERSONA_ORDER|
      invariant forall p :: p in reviews <==> p in PERSONA_ORDER
      invariant forall j :: 0 <= j < k ==> Filled(reviews[PERSONA_ORDER[j]], fs.files, PERSONA_ORDER[j], |TEMPERATURES| + 1)
      invariant PersonasFrom(Progress(Now(fs, client), true), context, k) == target
    {
      ghost var before := fs.files;
      var entry, ok := ReviewPersona(fs, client, context, k);
      if !ok {
        return reviews, false;
      }
      EarlierKept(reviews, entry, before, fs.files, k);
      reviews := reviews[PERSONA_ORDER[k] := entry];
      k := k + 1;
    }
    completed := true;
  }

  // ---------------------------------------------------------------------------
  // The work list and the reference for the calls made
  // ---------------------------------------------------------------------------

  /** The review file of `persona` for run `run` or a later one. */
  predicate LaterRun(key: Key, persona: string, run: int) {
    key.ExpertReview? && key.persona == persona && run <= key.run && IsRun(key.run)
  }

  /** A review file of the `k`-th persona or of a later one. */
  predicate LaterPersona(key: Key, k: nat)
    requires k <= |PERSONA_ORDER|
  {
    key.ExpertReview? && key.persona in PERSONA_ORDER[k..] && IsRun(key.run)
  }

  /** `run_<run>.md` … `run_3.md` of `persona`, in loop order. */
  function RunKeys(persona: string, run: int): (keys: seq<Key>)
    requires 1 <= run
    ensures forall key :: key in keys <==> LaterRun(key, persona, run)
    decreases |TEMPERATURES| + 1 - run
  {
    if run > |TEMPERATURES| then [] else [ExpertReview(persona, run)] + RunKeys(persona, run + 1)
  }

  /** The review files of the personas from the `k`-th on, in loop order. */
  function PersonaKeys(k: nat): (keys: seq<Key>)
    requires k <= |PERSONA_ORDER|
    ensures forall key :: key in keys <==> LaterPersona(key, k)
    decreases |PERSONA_ORDER| - k
  {
    if k == |PERSONA_ORDER| then []
    else
      assert PERSONA_ORDER[k..] == [PERSONA_ORDER[k]] + PERSONA_ORDER[k + 1..];
      RunKeys(PERSONA_ORDER[k], 1) + PersonaKeys(k + 1)
  }

  /** All 9 review files, in the order phase 1 visits them. */
  function LeafKeys(): (keys: seq<Key>)
    ensures forall key :: key in keys <==> IsLeafKey(key)
  {
    assert PERSONA_ORDER[0..] == PERSONA_ORDER;
    PersonaKeys(0)
  }

  /** No file occurs twice in `keys`. */
  predicate NoRepeats(keys: seq<Key>) {
    forall i, j :: 0 <= i < j < |keys| ==> keys[i] != keys[j]
  }

  lemma {:induction false} RunKeysDistinct(persona: string, run: int)
    requires 1 <= run <= |TEMPERATURES| + 1
    ensures |RunKeys(persona, run)| == |TEMPERATURES| + 1 - run
    ensures NoRepeats(RunKeys(persona, run))
    decreases |TEMPERATURES| + 1 - run
  {
    if run <= |TEMPERATURES| {
      var rest := RunKeys(persona, run + 1);
      RunKeysDistinct(persona, run + 1);
      var keys := [ExpertReview(persona, run)] + rest;
      forall i, j | 0 <= i < j < |keys| ensures keys[i] != keys[j] {
        assert keys[j] == rest[j - 1] && keys[j] in rest;
        if i > 0 {
          assert keys[i] == rest[i - 1];
        }
      }
    }
  }

  lemma {:induction false} PersonaKeysDistinct(k: nat)
    requires k <= |PERSONA_ORDER|
    ensures |PersonaKeys(k)| == |TEMPERATURES| * (|PERSONA_ORDER| - k)
    ensures NoRepeats(PersonaKeys(k))
    decreases |PERSONA_ORDER| - k
  {
    if k < |PERSONA_ORDER| {
      var first := RunKeys(PERSONA_ORDER[k], 1);
      var rest := PersonaKeys(k + 1);
      RunKeysDistinct(PERSONA_ORDER[k], 1);
      PersonaKeysDistinct(k + 1);
      SplitOrder(k);
      var keys := first + rest;
      assert keys == PersonaKeys(k);
      forall i, j | 0 <= i < j < |keys| ensures keys[i] != keys[j] {
        if j >= |first| {
          assert keys[j] == rest[j - |first|] && keys[j] in rest;
          assert keys[j].persona in PERSONA_ORDER[k + 1..];
          if i >= |first| {
            assert keys[i] == rest[i - |first|];
          } else {
            assert keys[i] == first[i] && keys[i] in first;
            assert keys[i].persona == PERSONA_ORDER[k];
          }
        } else {
          assert keys[i] == first[i] && keys[j] == first[j];
        }
      }
    }
  }

  /** Phase 1 visits exactly 9 review files, none of them twice. */
  lemma LeafKeysDistinct()
    ensures |LeafKeys()| == 9
    ensures NoRepeats(LeafKeys())
  {
    PersonaKeysDistinct(0);
  }

  /** One request per file of `keys` that is not valid in `files`, in order. */
  function PendingRequests(files: Files, prompt: string, context: string, keys: seq<Key>): seq<Request>
    requires forall key <- keys :: key.ExpertReview? && IsRun(key.run)
  {
    if keys == [] then []
    else
      (if IsValidOutput(files, keys[0]) then [] else [ReviewRequest(prompt, context, keys[0].run)])
      + PendingRequests(files, prompt, context, keys[1..])
  }

  /** The requests of the personas from the `k`-th on. */
  function PersonaRequests(files: Files, context: string, k: nat): seq<Request>
    requires k <= |PERSONA_ORDER|
    decreases |PERSONA_ORDER| - k
  {
    if k == |PERSONA_ORDER| then []
    else PendingRequests(files, PromptOf(files, PERSONA_ORDER[k]), context, RunKeys(PERSONA_ORDER[k], 1))
         + PersonaRequests(files, context, k + 1)
  }

  /** How many of `keys` are absent or hold an error placeholder in `files`. */
  function InvalidCount(files: Files, keys: seq<Key>): nat {
    if keys == [] then 0
    else (if IsValidOutput(files, keys[0]) then 0 else 1) + InvalidCount(files, keys[1..])
  }

  lemma {:induction false} PendingRequestsCount(files: Files, prompt: string, context: string, keys: seq<Key>)
    requires forall key <- keys :: key.ExpertReview? && IsRun(key.run)
    ensures |PendingRequests(files, prompt, context, keys)| == InvalidCount(files, keys)
  {
    if keys != [] {
      PendingRequestsCount(files, prompt, context, keys[1..]);
    }
  }

  /** The pending requests depend only on the files they name. */
  lemma {:induction false} PendingRequestsAgree(f: Files, g: Files, prompt: string, context: string, keys: seq<Key>)
    requires forall key <- keys :: key.ExpertReview? && IsRun(key.run)
    requires forall key <- keys :: Same(f, g, key)
    ensures PendingRequests(f, prompt, context, keys) == PendingRequests(g, prompt, context, keys)
  {
    if keys != [] {
      assert keys[0] in keys;
      PendingRequestsAgree(f, g, prompt, context, keys[1..]);
    }
  }

  lemma {:induction false} PersonaRequestsAgree(f: Files, g: Files, context: string, k: nat)
    requires k <= |PERSONA_ORDER|
    requires forall key :: LaterPersona(key, k) ==> Same(f, g, key)
    requires forall p :: Same(f, g, PersonaPrompt(p))
    ensures PersonaRequests(f, context, k) == PersonaRequests(g, context, k)
    decreases |PERSONA_ORDER| - k
  {
    if k < |PERSONA_ORDER| {
      var p := PERSONA_ORDER[k];
      assert PERSONA_ORDER[k..] == [p] + PERSONA_ORDER[k + 1..];
      assert PromptOf(f, p) == PromptOf(g, p) by {
        assert Same(f, g, PersonaPrompt(p));
      }
      forall key | key in RunKeys(p, 1) ensures Same(f, g, key) {
        assert LaterPersona(key, k);
      }
      PendingRequestsAgree(f, g, PromptOf(f, p), context, RunKeys(p, 1));
      forall key | LaterPersona(key, k + 1) ensures Same(f, g, key) {
        assert LaterPersona(key, k);
      }
      PersonaRequestsAgree(f, g, context, k + 1);
    }
  }

  lemma {:induction false} InvalidCountAppend(files: Files, a: seq<Key>, b: seq<Key>)
    ensures InvalidCount(files, a + b) == InvalidCount(files, a) + InvalidCount(files, b)
  {
    if a == [] {
      assert a + b == b;
    } else {
      assert (a + b)[0] == a[0];
      assert (a + b)[1..] == a[1..] + b;
      InvalidCountAppend(files, a[1..], b);
    }
  }

  lemma {:induction false} PersonaRequestsCount(files: Files, context: string, k: nat)
    requires k <= |PERSONA_ORDER|
    ensures |PersonaRequests(files, context, k)| == InvalidCount(files, PersonaKeys(k))
    decreases |PERSONA_ORDER| - k
  {
    if k < |PERSONA_ORDER| {
      var p := PERSONA_ORDER[k];
      PendingRequestsCount(files, PromptOf(files, p), context, RunKeys(p, 1));
      PersonaRequestsCount(files, context, k + 1);
      InvalidCountAppend(files, RunKeys(p, 1), PersonaKeys(k + 1));
    }
  }

  // ---------------------------------------------------------------------------
  // The inner loop, over the runs of one persona
  // ---------------------------------------------------------------------------

  /** One step writes at most its own file, and nothing at all when that file is valid. */
  lemma ReviewStepFrame(s: Progress, persona: string, prompt: string, context: string, run: int)
    requires IsRun(run)
    ensures var t := ReviewStep(s, persona, prompt, context, run);
      && (forall key :: key != ExpertReview(persona, run) ==> Same(s.world.files, t.world.files, key))
      && (IsValidOutput(s.world.files, ExpertReview(persona, run)) ==> t == s)
      && (t.running ==> ExpertReview(persona, run) in t.world.files)
  {
  }

  /** One step asks for its own file exactly when that file is not valid. */
  lemma ReviewStepRequests(s: Progress, persona: string, prompt: string, context: string, run: int)
    requires IsRun(run)
    ensures ReviewStep(s, persona, prompt, context, run).world.requests
         == s.world.requests
            + (if IsValidOutput(s.world.files, ExpertReview(persona, run)) then [] else [ReviewRequest(prompt, context, run)])
  {
  }

  /** The runs from `run` on write only their own files, and never a valid one. */
  lemma {:induction false} RunsFromFrame(s: Progress, persona: string, prompt: string, context: string, run: int)
    requires 1 <= run
    ensures var r := RunsFrom(s, persona, prompt, context, run);
      && (forall key :: !LaterRun(key, persona, run) ==> Same(s.world.files, r.world.files, key))
      && (forall key :: IsValidOutput(s.world.files, key) ==> Same(s.world.files, r.world.files, key))
    decreases |TEMPERATURES| + 1 - run
  {
    if s.running && run <= |TEMPERATURES| {
      var t := ReviewStep(s, persona, prompt, context, run);
      var r := RunsFrom(t, persona, prompt, context, run + 1);
      assert RunsFrom(s, persona, prompt, context, run) == r;
      ReviewStepFrame(s, persona, prompt, context, run);
      RunsFromFrame(t, persona, prompt, context, run + 1);
      var current := ExpertReview(persona, run);
      assert LaterRun(current, persona, run);
      forall key | !LaterRun(key, persona, run) ensures Same(s.world.files, r.world.files, key) {
        assert key != current && !LaterRun(key, persona, run + 1);
        assert Same(s.world.files, t.world.files, key) && Same(t.world.files, r.world.files, key);
      }
      forall key | IsValidOutput(s.world.files, key) ensures Same(s.world.files, r.world.files, key) {
        assert Same(s.world.files, t.world.files, key) by {
          if key == current {
            assert t == s;
          }
        }
        assert IsValidOutput(t.world.files, key);
        assert Same(t.world.files, r.world.files, key);
      }
    }
  }

  /** Completed runs from `run` on leave each of their files present. */
  lemma {:induction false} RunsFromWritten(s: Progress, persona: string, prompt: string, context: string, run: int)
    requires 1 <= run
    ensures var r := RunsFrom(s, persona, prompt, context, run);
      r.running ==> forall j :: run <= j && IsRun(j) ==> ExpertReview(persona, j) in r.world.files
    decreases |TEMPERATURES| + 1 - run
  {
    if s.running && run <= |TEMPERATURES| {
      var t := ReviewStep(s, persona, prompt, context, run);
      var r := RunsFrom(t, persona, prompt, context, run + 1);
      assert RunsFrom(s, persona, prompt, context, run) == r;
      RunsFromWritten(t, persona, prompt, context, run + 1);
      if r.running {
        var key := ExpertReview(persona, run);
        ReviewStepFrame(s, persona, prompt, context, run);
        RunsFromFrame(t, persona, prompt, context, run + 1);
        forall j | run <= j && IsRun(j) ensures ExpertReview(persona, j) in r.world.files {
          if j == run {
            assert !LaterRun(key, persona, run + 1);
            assert Same(t.world.files, r.world.files, key);
          }
        }
      }
    }
  }

  /**
   * The runs from `run` on call the service for a prefix of the files among
   * them that were not valid, in order, however they end; when they complete,
   * for all of them.
   */
  lemma {:induction false} RunsFromRequests(s: Progress, persona: string, prompt: string, context: string, run: int)
    requires 1 <= run
    ensures var r := RunsFrom(s, persona, prompt, context, run);
      var pending := PendingRequests(s.world.files, prompt, context, RunKeys(persona, run));
      && Extends(s.world.requests, r.world.requests, pending)
      && (r.running ==> r.world.requests == s.world.requests + pending)
    decreases |TEMPERATURES| + 1 - run
  {
    var pending := PendingRequests(s.world.files, prompt, context, RunKeys(persona, run));
    if s.running && run <= |TEMPERATURES| {
      var t := ReviewStep(s, persona, prompt, context, run);
      var r := RunsFrom(t, persona, prompt, context, run + 1);
      assert RunsFrom(s, persona, prompt, context, run) == r;
      var keys := RunKeys(persona, run);
      assert keys[0] == ExpertReview(persona, run) && keys[1..] == RunKeys(persona, run + 1);
      var head := if IsValidOutput(s.world.files, keys[0]) then [] else [ReviewRequest(prompt, context, run)];
      var tail := PendingRequests(s.world.files, prompt, context, keys[1..]);
      assert pending == head + tail;
      ReviewStepRequests(s, persona, prompt, context, run);
      if t.running {
        ReviewStepFrame(s, persona, prompt, context, run);
        RunsFromRequests(t, persona, prompt, context, run + 1);
        forall key | key in keys[1..] ensures Same(s.world.files, t.world.files, key) {
          assert LaterRun(key, persona, run + 1);
        }
        PendingRequestsAgree(s.world.files, t.world.files, prompt, context, keys[1..]);
        ExtendsChain(s.world.requests, head, r.world.requests, tail);
        if r.running {
          AppendAssoc(s.world.requests, head, tail);
        }
      } else {
        assert r == t;
        ExtendsWhole(s.world.requests, head);
        ExtendsMore(s.world.requests, t.world.requests, head, tail);
      }
    } else {
      ExtendsRefl(s.world.requests, pending);
    }
  }

  /** With no error text in the replies, completed runs leave every one of their files valid. */
  lemma {:induction false} RunsFromValid(s: Progress, persona: string, prompt: string, context: string, run: int)
    requires 1 <= run && NoErrorText(s.world.replies)
    ensures var r := RunsFrom(s, persona, prompt, context, run);
      && NoErrorText(r.world.replies)
      && (r.running ==> forall j :: run <= j && IsRun(j) ==> IsValidOutput(r.world.files, ExpertReview(persona, j)))
    decreases |TEMPERATURES| + 1 - run
  {
    if s.running && run <= |TEMPERATURES| {
      var t := ReviewStep(s, persona, prompt, context, run);
      var r := RunsFrom(t, persona, prompt, context, run + 1);
      assert RunsFrom(s, persona, prompt, context, run) == r;
      RunsFromValid(t, persona, prompt, context, run + 1);
      if r.running {
        var key := ExpertReview(persona, run);
        RunsFromFrame(t, persona, prompt, context, run + 1);
        assert IsValidOutput(t.world.files, key);
        forall j | run <= j && IsRun(j) ensures IsValidOutput(r.world.files, ExpertReview(persona, j)) {
          if j == run {
            assert Same(t.world.files, r.world.files, key);
          }
        }
      }
    }
  }

  /** Runs whose files are all valid make no call and change nothing. */
  lemma {:induction false} RunsFromIdle(s: Progress, persona: string, prompt: string, context: string, run: int)
    requires 1 <= run && s.running
    requires forall j :: run <= j && IsRun(j) ==> IsValidOutput(s.world.files, ExpertReview(persona, j))
    ensures RunsFrom(s, persona, prompt, context, run) == s
    decreases |TEMPERATURES| + 1 - run
  {
    if run <= |TEMPERATURES| {
      ReviewStepFrame(s, persona, prompt, context, run);
      RunsFromIdle(ReviewStep(s, persona, prompt, context, run), persona, prompt, context, run + 1);
    }
  }

  // ---------------------------------------------------------------------------
  // The outer loop, over the personas
  // ---------------------------------------------------------------------------

  /** The personas from the `k`-th on write only their own review files, and never a valid one. */
  lemma {:induction false} PersonasFromFrame(s: Progress, context: string, k: nat)
    requires k <= |PERSONA_ORDER|
    ensures var r := PersonasFrom(s, context, k);
      && (forall key :: !LaterPersona(key, k) ==> Same(s.world.files, r.world.files, key))
      && (forall key :: IsValidOutput(s.world.files, key) ==> Same(s.world.files, r.world.files, key))
    decreases |PERSONA_ORDER| - k
  {
    if s.running && k < |PERSONA_ORDER| {
      var p := PERSONA_ORDER[k];
      SplitOrder(k);
      match LoadPersona(s.world.files, p)
      case None =>
      case Some(prompt) =>
        var t := RunsFrom(s, p, prompt, context, 1);
        var r := PersonasFrom(t, context, k + 1);
        assert PersonasFrom(s, context, k) == r;
        RunsFromFrame(s, p, prompt, context, 1);
        PersonasFromFrame(t, context, k + 1);
        forall key | !LaterPersona(key, k) ensures Same(s.world.files, r.world.files, key) {
          assert !LaterRun(key, p, 1) && !LaterPersona(key, k + 1);
        }
        forall key | IsValidOutput(s.world.files, key) ensures Same(s.world.files, r.world.files, key) {
          assert IsValidOutput(t.world.files, key);
        }
    }
  }

  /** Completed personas from the `k`-th on leave all their review files present. */
  lemma {:induction false} PersonasFromWritten(s: Progress, context: string, k: nat)
    requires k <= |PERSONA_ORDER|
    ensures var r := PersonasFrom(s, context, k);
      r.running ==> forall key :: LaterPersona(key, k) ==> key in r.world.files
    decreases |PERSONA_ORDER| - k
  {
    if s.running && k < |PERSONA_ORDER| {
      var p := PERSONA_ORDER[k];
      SplitOrder(k);
      match LoadPersona(s.world.files, p)
      case None =>
      case Some(prompt) =>
        var t := RunsFrom(s, p, prompt, context, 1);
        var r := PersonasFrom(t, context, k + 1);
        assert PersonasFrom(s, context, k) == r;
        RunsFromWritten(s, p, prompt, context, 1);
        PersonasFromWritten(t, context, k + 1);
        if r.running {
          PersonasFromFrame(t, context, k + 1);
          forall key | LaterPersona(key, k) ensures key in r.world.files {
            if key.persona == p {
              assert key in t.world.files;
              assert !LaterPersona(key, k + 1);
              assert Same(t.world.files, r.world.files, key);
            } else {
              assert LaterPersona(key, k + 1);
            }
          }
        }
    }
  }

  /**
   * The personas from the `k`-th on call the service for a prefix of the
   * reference list, however they end; when they complete, for all of it.
   */
  lemma {:induction false} PersonasFromRequests(s: Progress, context: string, k: nat)
    requires k <= |PERSONA_ORDER|
    ensures var r := PersonasFrom(s, context, k);
      var pending := PersonaRequests(s.world.files, context, k);
      && Extends(s.world.requests, r.world.requests, pending)
      && (r.running ==> r.world.requests == s.world.requests + pending)
    decreases |PERSONA_ORDER| - k
  {
    var pending := PersonaRequests(s.world.files, context, k);
    if s.running && k < |PERSONA_ORDER| {
      var p := PERSONA_ORDER[k];
      SplitOrder(k);
      match LoadPersona(s.world.files, p)
      case None =>
        ExtendsRefl(s.world.requests, pending);
      case Some(prompt) =>
        var t := RunsFrom(s, p, prompt, context, 1);
        var r := PersonasFrom(t, context, k + 1);
        assert PersonasFrom(s, context, k) == r;
        RunsFromRequests(s, p, prompt, context, 1);
        assert prompt == PromptOf(s.world.files, p);
        var head := PendingRequests(s.world.files, prompt, context, RunKeys(p, 1));
        var tail := PersonaRequests(s.world.files, context, k + 1);
        assert pending == head + tail;
        if t.running {
          RunsFromFrame(s, p, prompt, context, 1);
          PersonasFromRequests(t, context, k + 1);
          forall key | LaterPersona(key, k + 1) ensures Same(s.world.files, t.world.files, key) {
            assert !LaterRun(key, p, 1);
          }
          forall q ensures Same(s.world.files, t.world.files, PersonaPrompt(q)) {
            assert !LaterRun(PersonaPrompt(q), p, 1);
          }
          PersonaRequestsAgree(s.world.files, t.world.files, context, k + 1);
          assert t.world.requests == s.world.requests + head;
          ExtendsChain(s.world.requests, head, r.world.requests, tail);
          if r.running {
            AppendAssoc(s.world.requests, head, tail);
          }
        } else {
          assert r == t;
          ExtendsMore(s.world.requests, t.world.requests, head, tail);
        }
    } else {
      ExtendsRefl(s.world.requests, pending);
    }
  }

  /** With no error text in the replies, completed personas leave all their review files valid. */
  lemma {:induction false} PersonasFromValid(s: Progress, context: string, k: nat)
    requires k <= |PERSONA_ORDER| && NoErrorText(s.world.replies)
    ensures var r := PersonasFrom(s, context, k);
      && NoErrorText(r.world.replies)
      && (r.running ==> forall key :: LaterPersona(key, k) ==> IsValidOutput(r.world.files, key))
    decreases |PERSONA_ORDER| - k
  {
    if s.running && k < |PERSONA_ORDER| {
      var p := PERSONA_ORDER[k];
      SplitOrder(k);
      match LoadPersona(s.world.files, p)
      case None =>
      case Some(prompt) =>
        var t := RunsFrom(s, p, prompt, context, 1);
        var r := PersonasFrom(t, context, k + 1);
        assert PersonasFrom(s, context, k) == r;
        RunsFromValid(s, p, prompt, context, 1);
        PersonasFromValid(t, context, k + 1);
        if r.running {
          PersonasFromFrame(t, context, k + 1);
          forall key | LaterPersona(key, k) ensures IsValidOutput(r.world.files, key) {
            if key.persona == p {
              assert IsValidOutput(t.world.files, key);
            } else {
              assert LaterPersona(key, k + 1);
            }
          }
        }
    }
  }

  /** The personas from the `k`-th on complete only if each of their prompt files exists. */
  lemma {:induction false} PersonasFromPrompts(s: Progress, context: string, k: nat)
    requires k <= |PERSONA_ORDER|
    ensures var r := PersonasFrom(s, context, k);
      r.running ==> forall q <- PERSONA_ORDER[k..] :: PersonaPrompt(q) in s.world.files
    decreases |PERSONA_ORDER| - k
  {
    if s.running && k < |PERSONA_ORDER| {
      var p := PERSONA_ORDER[k];
      SplitOrder(k);
      match LoadPersona(s.world.files, p)
      case None =>
      case Some(prompt) =>
        var t := RunsFrom(s, p, prompt, context, 1);
        var r := PersonasFrom(t, context, k + 1);
        assert PersonasFrom(s, context, k) == r;
        RunsFromFrame(s, p, prompt, context, 1);
        PersonasFromPrompts(t, context, k + 1);
        if r.running {
          forall q <- PERSONA_ORDER[k..] ensures PersonaPrompt(q) in s.world.files {
            if q != p {
              assert q in PERSONA_ORDER[k + 1..];
              assert !LaterRun(PersonaPrompt(q), p, 1);
            }
          }
        }
    }
  }

  /** Personas whose prompts exist and whose review files are all valid make no call and change nothing. */
  lemma {:induction false} PersonasFromIdle(s: Progress, context: string, k: nat)
    requires k <= |PERSONA_ORDER| && s.running
    requires forall key :: LaterPersona(key, k) ==> IsValidOutput(s.world.files, key)
    requires forall q <- PERSONA_ORDER[k..] :: PersonaPrompt(q) in s.world.files
    ensures PersonasFrom(s, context, k) == s
    decreases |PERSONA_ORDER| - k
  {
    if k < |PERSONA_ORDER| {
      var p := PERSONA_ORDER[k];
      SplitOrder(k);
      var prompt := PromptOf(s.world.files, p);
      assert LoadPersona(s.world.files, p) == Some(prompt);
      forall j | 1 <= j && IsRun(j) ensures IsValidOutput(s.world.files, ExpertReview(p, j)) {
        assert LaterPersona(ExpertReview(p, j), k);
      }
      RunsFromIdle(s, p, prompt, context, 1);
      forall key | LaterPersona(key, k + 1) ensures IsValidOutput(s.world.files, key) {
        assert LaterPersona(key, k);
      }
      PersonasFromIdle(s, context, k + 1);
    }
  }

  // ---------------------------------------------------------------------------
  // What phase 1 guarantees
  // ---------------------------------------------------------------------------

  /**
   * A valid cached review is never rewritten, whether phase 1 completes or
   * stops at a failed call; nor is any file other than the 9 review files.
   */
  lemma Phase1KeepsValidFiles(w: World, context: string)
    ensures var r := Phase1Spec(w, context);
      && (forall key :: IsValidOutput(w.files, key) ==> Same(w.files, r.world.files, key))
      && (forall key :: !IsLeafKey(key) ==> Same(w.files, r.world.files, key))
  {
    PersonasFromFrame(Progress(w, true), context, 0);
    assert PERSONA_ORDER[0..] == PERSONA_ORDER;
  }

  /** When phase 1 completes, all 9 review files exist. */
  lemma Phase1WritesAllReviews(w: World, context: string)
    ensures var r := Phase1Spec(w, context);
      r.running ==> forall key :: IsLeafKey(key) ==> key in r.world.files
  {
    PersonasFromWritten(Progress(w, true), context, 0);
    assert PERSONA_ORDER[0..] == PERSONA_ORDER;
  }

  /**
   * Whether phase 1 completes or stops at a failure, its calls are a prefix
   * of the reference list: one per review file that was not valid, in grid
   * order, each with the persona's prompt, the shared context and the run's
   * temperature; so no valid file is asked for again. On completion the calls
   * are the whole list.
   */
  lemma Phase1CallsOnlyForInvalidFiles(w: World, context: string)
    ensures var r := Phase1Spec(w, context);
      && Extends(w.requests, r.world.requests, PersonaRequests(w.files, context, 0))
      && |r.world.requests| <= |w.requests| + InvalidCount(w.files, LeafKeys())
    ensures var r := Phase1Spec(w, context);
      r.running ==>
        && r.world.requests == w.requests + PersonaRequests(w.files, context, 0)
        && |r.world.requests| == |w.requests| + InvalidCount(w.files, LeafKeys())
  {
    PersonasFromRequests(Progress(w, true), context, 0);
    PersonaRequestsCount(w.files, context, 0);
  }

  /**
   * Over a store whose persona prompts exist and whose 9 review files are all
   * valid, phase 1 makes no call and changes nothing.
   */
  lemma Phase1IdempotentWhenAllValid(w: World, context: string)
    requires forall key :: IsLeafKey(key) ==> IsValidOutput(w.files, key)
    requires forall p <- PERSONA_ORDER :: PersonaPrompt(p) in w.files
    ensures Phase1Spec(w, context) == Progress(w, true)
  {
    assert PERSONA_ORDER[0..] == PERSONA_ORDER;
    PersonasFromIdle(Progress(w, true), context, 0);
  }

  /**
   * If no reply of the service is error text, a completed phase 1 leaves all
   * 9 review files valid; and it completes only if every persona prompt exists.
   */
  lemma Phase1LeavesValidFiles(w: World, context: string)
    requires NoErrorText(w.replies)
    ensures var r := Phase1Spec(w, context);
      && NoErrorText(r.world.replies)
      && (r.running ==> forall key :: IsLeafKey(key) ==> IsValidOutput(r.world.files, key))
      && (r.running ==> forall p <- PERSONA_ORDER :: PersonaPrompt(p) in w.files)
  {
    var s := Progress(w, true);
    PersonasFromValid(s, context, 0);
    PersonasFromPrompts(s, context, 0);
    assert PERSONA_ORDER[0..] == PERSONA_ORDER;
  }
}

=== FILE: phase2.dfy ===
/**
 * Phase 2 of the review engine (`phase2` in main.py): for each of the 27
 * combos, in `itertools.product` order, skip the combo when its synthesis and
 * its three review copies are all valid; otherwise load the synthesiser's
 * prompt, ask the service to synthesise the combo's three reviews, write the
 * synthesis, and copy the three source review files into the combo's folder.
 * A missing synthesiser prompt, a failed call or a missing source review ends
 * the run with whatever has been written so far.
 *
 * `Phase2Spec` is the reference definition, a fold over the combo list;
 * `RunPhase2` is the script's loop, proved equal to it; the lemmas state what
 * the fold guarantees.
 */
module Phase2 {
  import opened Strings
  import opened Store
  import opened Service
  import opened Gauntlet
  import opened Combos

  /** Every run of every persona is in the dict phase 2 is given. */
  ghost predicate ReviewsAvailable(reviews: Reviews) {
    forall k, run :: 0 <= k < |PERSONA_ORDER| && IsRun(run) ==> HasReview(reviews, PERSONA_ORDER[k], run)
  }

  lemma ReviewsOfCombo(reviews: Reviews, combo: seq<int>)
    requires ReviewsAvailable(reviews) && IsCombo(combo)
    ensures forall k :: 0 <= k < |combo| ==> PERSONA_ORDER[k] in reviews && combo[k] in reviews[PERSONA_ORDER[k]]
  {
    forall k | 0 <= k < |combo| ensures PERSONA_ORDER[k] in reviews && combo[k] in reviews[PERSONA_ORDER[k]] {
      assert HasReview(reviews, PERSONA_ORDER[k], combo[k]);
    }
  }

  /** The skip test: the synthesis and the three review copies of `folder` are all valid. */
  predicate ComboComplete(files: Files, folder: string) {
    && IsValidOutput(files, Synthesis(folder))
    && forall k :: 0 <= k < |PERSONA_ORDER| ==> IsValidOutput(files, ReviewCopy(folder, PERSONA_ORDER[k]))
  }

  /** A file under the syntheses directory. */
  predicate InSyntheses(key: Key) {
    key.Synthesis? || key.ReviewCopy?
  }

  /** A file of the combo folder named `folder`. */
  predicate InFolder(key: Key, folder: string) {
    InSyntheses(key) && key.folder == folder
  }

  /** The review copy of the `k`-th persona or of a later one, in `folder`. */
  predicate LaterCopy(key: Key, folder: string, k: nat)
    requires k <= |PERSONA_ORDER|
  {
    key.ReviewCopy? && key.folder == folder && key.persona in PERSONA_ORDER[k..]
  }

  /** In `dst`, the `k`-th persona's copy in `folder` holds the text its source review has in `src`. */
  predicate Copied(src: Files, dst: Files, folder: string, combo: seq<int>, k: int) {
    && 0 <= k < |combo| && k < |PERSONA_ORDER|
    && ExpertReview(PERSONA_ORDER[k], combo[k]) in src
    && ReviewCopy(folder, PERSONA_ORDER[k]) in dst
    && dst[ReviewCopy(folder, PERSONA_ORDER[k])] == src[ExpertReview(PERSONA_ORDER[k], combo[k])]
  }

  /** Every review file of every persona is valid in `files`. */
  ghost predicate SourcesValid(files: Files) {
    forall k, run :: 0 <= k < |PERSONA_ORDER| && IsRun(run) ==> IsValidOutput(files, ExpertReview(PERSONA_ORDER[k], run))
  }

  /**
   * The copy loop from the `k`-th persona on: `shutil.copy2` of each source
   * review into the folder; a missing source raises and ends the run.
   */
  function CopiesFrom(s: Progress, folder: string, combo: seq<int>, k: nat): Progress
    requires IsCombo(combo) && k <= |combo|
    decreases |combo| - k
  {
    if !s.running || k == |combo| then s
    else
      var src := ExpertReview(PERSONA_ORDER[k], combo[k]);
      if src !in s.world.files then s.(running := false)
      else
        var files := s.world.files[ReviewCopy(folder, PERSONA_ORDER[k]) := s.world.files[src]];
        CopiesFrom(Progress(s.world.(files := files), true), folder, combo, k + 1)
  }

  /**
   * What the loop body of `phase2` works out for one combo before it looks
   * at the disk: the folder its label names and the user message of its
   * synthesis request. Both depend only on the combo and on the inputs of
   * the phase, so they are worked out once per combo.
   */
  datatype Job = Job(combo: seq<int>, folder: string, message: string)

  /** The job of `combo`: its label, and the call and proposal texts followed by its tagged reviews. */
  function JobOf(callText: string, proposalText: string, reviews: Reviews, combo: seq<int>): Job
    requires ReviewsAvailable(reviews) && IsCombo(combo)
  {
    ReviewsOfCombo(reviews, combo);
    Job(combo, ComboLabel(combo), SynthesisMessage(callText, proposalText, ReviewBlock(reviews, combo)))
  }

  /** The job of each combo of `combos`, in order. */
  function Jobs(callText: string, proposalText: string, reviews: Reviews, combos: seq<seq<int>>): (jobs: seq<Job>)
    requires ReviewsAvailable(reviews) && forall j :: 0 <= j < |combos| ==> IsCombo(combos[j])
    ensures |jobs| == |combos|
  {
    seq(|combos|, j requires 0 <= j < |combos| => JobOf(callText, proposalText, reviews, combos[j]))
  }

  /** The synthesis request of a job: the synthesiser's prompt and the job's message. */
  function SynthesisRequest(prompt: string, job: Job): Request {
    Message(prompt, job.message, SYNTH_TEMP, SYNTH_MAX_TOKENS)
  }

  predicate AllAreCombos(jobs: seq<Job>) {
    forall j :: 0 <= j < |jobs| ==> IsCombo(jobs[j].combo)
  }

  /** No two jobs share a folder. */
  predicate DistinctFolders(jobs: seq<Job>) {
    forall i, j :: 0 <= i < j < |jobs| ==> jobs[i].folder != jobs[j].folder
  }

  /** Ask for the synthesis of the job's combo; unless the call fails, write it and copy its sources. */
  function Synthesize(w: World, prompt: string, job: Job): Progress
    requires IsCombo(job.combo)
  {
    var call := Ask(w, SynthesisRequest(prompt, job));
    match call.0
    case Failure => Progress(call.1, false)
    case Text(text) =>
      CopiesFrom(Progress(call.1.(files := call.1.files[Synthesis(job.folder) := text]), true), job.folder, job.combo, 0)
  }

  /** One pass of the loop body of `phase2`. */
  function ComboStep(s: Progress, job: Job): Progress
    requires IsCombo(job.combo)
  {
    if ComboComplete(s.world.files, job.folder) then s
    else
      match LoadPersona(s.world.files, SYNTHESIZER)
      case None => s.(running := false)
      case Some(prompt) => Synthesize(s.world, prompt, job)
  }

  /** The loop of `phase2` from the `i`-th job on. */
  function CombosFrom(s: Progress, jobs: seq<Job>, i: nat): Progress
    requires AllAreCombos(jobs) && i <= |jobs|
    decreases |jobs| - i
  {
    if !s.running || i == |jobs| then s
    else CombosFrom(ComboStep(s, jobs[i]), jobs, i + 1)
  }

  /** The jobs of all 27 combos have distinct folders. */
  lemma AllJobs(callText: string, proposalText: string, reviews: Reviews)
    requires ReviewsAvailable(reviews)
    ensures forall j :: 0 <= j < |AllCombos()| ==> IsCombo(AllCombos()[j])
    ensures var jobs := Jobs(callText, proposalText, reviews, AllCombos());
      AllAreCombos(jobs) && DistinctFolders(jobs)
  {
    AllCombosFacts();
    var combos := AllCombos();
    forall j | 0 <= j < |combos| ensures IsCombo(combos[j]) {
      assert combos[j] in combos;
    }
  }

  /** The jobs of the 27 combos, in the order phase 2 visits them; each has a folder of its own. */
  function Phase2Jobs(callText: string, proposalText: string, reviews: Reviews): (jobs: seq<Job>)
    requires ReviewsAvailable(reviews)
    ensures |jobs| == 27 && AllAreCombos(jobs) && DistinctFolders(jobs)
  {
    AllJobs(callText, proposalText, reviews);
    AllCombosFacts();
    Jobs(callText, proposalText, reviews, AllCombos())
  }

  /** What `phase2(client, call_text, proposal_text, reviews)` does to the world, and whether it returns. */
  function Phase2Spec(w: World, callText: string, proposalText: string, reviews: Reviews): Progress
    requires ReviewsAvailable(reviews)
  {
    CombosFrom(Progress(w, true), Phase2Jobs(callText, proposalText, reviews), 0)
  }

  // ---------------------------------------------------------------------------
  // The script's loops
  // ---------------------------------------------------------------------------

  /** `source_copies_ok`: `all` over the personas, stopping at the first invalid copy. */
  method CopiesValid(fs: FileStore, folder: string) returns (ok: bool)
    ensures ok <==> forall k :: 0 <= k < |PERSONA_ORDER| ==> IsValidOutput(fs.files, ReviewCopy(folder, PERSONA_ORDER[k]))
  {
    var k := 0;
    while k < |PERSONA_ORDER|
      invariant 0 <= k <= |PERSONA_ORDER|
      invariant forall j :: 0 <= j < k ==> IsValidOutput(fs.files, ReviewCopy(folder, PERSONA_ORDER[j]))
    {
      var valid := fs.IsValid(ReviewCopy(folder, PERSONA_ORDER[k]));
      if !valid {
        return false;
      }
      k := k + 1;
    }
    return true;
  }

  /** The copy loop: one `shutil.copy2` per persona of the combo. */
  method CopySources(fs: FileStore, client: Client, folder: string, combo: seq<int>) returns (ok: bool)
    requires IsCombo(combo)
    modifies fs
    ensures Progress(Now(fs, client), ok) == CopiesFrom(Progress(old(Now(fs, client)), true), folder, combo, 0)
  {
    ghost var target := CopiesFrom(Progress(Now(fs, client), true), folder, combo, 0);
    var k := 0;
    while k < |combo|
      invariant 0 <= k <= |combo|
      invariant CopiesFrom(Progress(Now(fs, client), true), folder, combo, k) == target
    {
      ok := fs.Copy(ExpertReview(PERSONA_ORDER[k], combo[k]), ReviewCopy(folder, PERSONA_ORDER[k]));
      if !ok {
        return;
      }
      k := k + 1;
    }
    ok := true;
  }

  /** The synthesis call of one combo, then the write of its reply and the copies of its sources. */
  method SynthesizeJob(fs: FileStore, client: Client, prompt: string, job: Job) returns (ok: bool)
    requires IsCombo(job.combo)
    modifies fs, client
    ensures Progress(Now(fs, client), ok) == Synthesize(old(Now(fs, client)), prompt, job)
  {
    var reply := client.Create(Message(prompt, job.message, SYNTH_TEMP, SYNTH_MAX_TOKENS));
    if reply.Failure? {
      return false;
    }
    fs.WriteText(Synthesis(job.folder), reply.text);
    ok := CopySources(fs, client, job.folder, job.combo);
  }

  /** The loop body of `phase2` for one combo. */
  method SynthesizeCombo(fs: FileStore, client: Client, callText: string, proposalText: string, reviews: Reviews, combo: seq<int>)
    returns (ok: bool)
    requires ReviewsAvailable(reviews) && IsCombo(combo)
    modifies fs, client
    ensures Progress(Now(fs, client), ok)
         == ComboStep(Progress(old(Now(fs, client)), true), JobOf(callText, proposalText, reviews, combo))
  {
    var folder := ComboLabel(combo);
    var copiesOk := CopiesValid(fs, folder);
    var synthOk := fs.IsValid(Synthesis(folder));
    if synthOk && copiesOk {
      return true;
    }
    var present := fs.Exists(PersonaPrompt(SYNTHESIZER));
    if !present {
      return false;
    }
    var raw := fs.ReadText(PersonaPrompt(SYNTHESIZER));
    var prompt := StripPersonaHeader(raw);
    ReviewsOfCombo(reviews, combo);
    var userMsg := SynthesisMessage(callText, proposalText, ReviewBlock(reviews, combo));
    ok := SynthesizeJob(fs, client, prompt, Job(combo, folder, userMsg));
  }

  /** `phase2`: one synthesis per combo, in order; `completed` is false when a call or a read aborts the run. */
  method RunPhase2(fs: FileStore, client: Client, callText: string, proposalText: string, reviews: Reviews)
    returns (completed: bool)
    requires ReviewsAvailable(reviews)
    modifies fs, client
    ensures Progress(Now(fs, client), completed) == Phase2Spec(old(Now(fs, client)), callText, proposalText, reviews)
  {
    var combos := AllCombos();
    AllJobs(callText, proposalText, reviews);
    ghost var jobs := Phase2Jobs(callText, proposalText, reviews);
    ghost var target := CombosFrom(Progress(Now(fs, client), true), jobs, 0);
    var i := 0;
    while i < |combos|
      invariant 0 <= i <= |combos|
      invariant CombosFrom(Progress(Now(fs, client), true), jobs, i) == target
    {
      assert jobs[i] == JobOf(callText, proposalText, reviews, combos[i]);
      completed := SynthesizeCombo(fs, client, callText, proposalText, reviews, combos[i]);
      if !completed {
        return;
      }
      i := i + 1;
    }
    completed := true;
  }

  // ---------------------------------------------------------------------------
  // The copy loop of one combo
  // ---------------------------------------------------------------------------

  /** The copy loop from the `k`-th persona on makes no call and writes only the later copies of its folder. */
  lemma {:induction false} CopiesFromFrame(s: Progress, folder: string, combo: seq<int>, k: nat)
    requires IsCombo(combo) && k <= |combo|
    ensures var r := CopiesFrom(s, folder, combo, k);
      && r.world.replies == s.world.replies
      && r.world.requests == s.world.requests
      && (forall key :: !LaterCopy(key, folder, k) ==> Same(s.world.files, r.world.files, key))
    decreases |combo| - k
  {
    if s.running && k < |combo| {
      var src := ExpertReview(PERSONA_ORDER[k], combo[k]);
      if src in s.world.files {
        var dst := ReviewCopy(folder, PERSONA_ORDER[k]);
        var t := Progress(s.world.(files := s.world.files[dst := s.world.files[src]]), true);
        var r := CopiesFrom(t, folder, combo, k + 1);
        assert CopiesFrom(s, folder, combo, k) == r;
        CopiesFromFrame(t, folder, combo, k + 1);
        SplitOrder(k);
        forall key | !LaterCopy(key, folder, k) ensures Same(s.world.files, r.world.files, key) {
          assert key != dst && !LaterCopy(key, folder, k + 1);
          assert Same(s.world.files, t.world.files, key) && Same(t.world.files, r.world.files, key);
        }
      }
    }
  }

  /**
   * The copy loop from the `k`-th persona on completes exactly when each of
   * its source reviews exists, and then each copy holds its source's text.
   */
  lemma {:induction false} CopiesFromCopies(s: Progress, folder: string, combo: seq<int>, k: nat)
    requires IsCombo(combo) && k <= |combo|
    ensures var r := CopiesFrom(s, folder, combo, k);
      && (r.running <==> s.running && forall j :: k <= j < |combo| ==> ExpertReview(PERSONA_ORDER[j], combo[j]) in s.world.files)
      && (r.running ==> forall j :: k <= j < |combo| ==> Copied(s.world.files, r.world.files, folder, combo, j))
    decreases |combo| - k
  {
    if s.running && k < |combo| {
      var src := ExpertReview(PERSONA_ORDER[k], combo[k]);
      if src in s.world.files {
        var dst := ReviewCopy(folder, PERSONA_ORDER[k]);
        var t := Progress(s.world.(files := s.world.files[dst := s.world.files[src]]), true);
        var r := CopiesFrom(t, folder, combo, k + 1);
        assert CopiesFrom(s, folder, combo, k) == r;
        CopiesFromCopies(t, folder, combo, k + 1);
        forall j | k < j < |combo| ensures Same(s.world.files, t.world.files, ExpertReview(PERSONA_ORDER[j], combo[j])) {
        }
        if r.running {
          CopiesFromFrame(t, folder, combo, k + 1);
          SplitOrder(k);
          assert !LaterCopy(dst, folder, k + 1);
          assert Same(t.world.files, r.world.files, dst);
          assert Copied(s.world.files, r.world.files, folder, combo, k);
          forall j | k < j < |combo| ensures Copied(s.world.files, r.world.files, folder, combo, j) {
            assert Copied(t.world.files, r.world.files, folder, combo, j);
            assert Same(s.world.files, t.world.files, ExpertReview(PERSONA_ORDER[j], combo[j]));
          }
        }
      }
    }
  }

  // ---------------------------------------------------------------------------
  // One combo
  // ---------------------------------------------------------------------------

  /**
   * A synthesis writes only into its job's folder, keeps the replies free of
   * error text and, whether or not it goes through, costs exactly its request.
   */
  lemma SynthesizeFrame(w: World, prompt: string, job: Job)
    requires IsCombo(job.combo)
    ensures var t := Synthesize(w, prompt, job);
      && (forall key :: !InFolder(key, job.folder) ==> Same(w.files, t.world.files, key))
      && (NoErrorText(w.replies) ==> NoErrorText(t.world.replies))
      && t.world.requests == w.requests + [SynthesisRequest(prompt, job)]
  {
    var req := SynthesisRequest(prompt, job);
    var call := Ask(w, req);
    match call.0
    case Failure =>
    case Text(text) =>
      var u := Progress(call.1.(files := call.1.files[Synthesis(job.folder) := text]), true);
      var t := CopiesFrom(u, job.folder, job.combo, 0);
      assert Synthesize(w, prompt, job) == t;
      CopiesFromFrame(u, job.folder, job.combo, 0);
      assert u.world.requests == w.requests + [req];
      forall key | !InFolder(key, job.folder) ensures Same(w.files, t.world.files, key) {
        assert !LaterCopy(key, job.folder, 0);
        assert Same(w.files, u.world.files, key) && Same(u.world.files, t.world.files, key);
      }
  }

  /** One combo writes only into its own folder (and nothing at all when that folder is complete). */
  lemma StepKeeps(s: Progress, job: Job)
    requires IsCombo(job.combo)
    ensures forall key :: !InFolder(key, job.folder) ==> Same(s.world.files, ComboStep(s, job).world.files, key)
  {
    if !ComboComplete(s.world.files, job.folder) {
      match LoadPersona(s.world.files, SYNTHESIZER)
      case None =>
      case Some(prompt) =>
        SynthesizeFrame(s.world, prompt, job);
    }
  }

  /** One combo keeps the replies free of error text. */
  lemma StepReplies(s: Progress, job: Job)
    requires IsCombo(job.combo)
    ensures NoErrorText(s.world.replies) ==> NoErrorText(ComboStep(s, job).world.replies)
  {
    if !ComboComplete(s.world.files, job.folder) {
      match LoadPersona(s.world.files, SYNTHESIZER)
      case None =>
      case Some(prompt) =>
        SynthesizeFrame(s.world, prompt, job);
    }
  }

  /**
   * A complete combo costs nothing; an incomplete one costs at most its
   * synthesis request, made with the synthesiser's prompt, and exactly that
   * request when it goes through.
   */
  lemma StepRequests(s: Progress, job: Job)
    requires IsCombo(job.combo)
    ensures var t := ComboStep(s, job);
      t.running && !ComboComplete(s.world.files, job.folder) ==>
        t.world.requests == s.world.requests + [SynthesisRequest(PromptOf(s.world.files, SYNTHESIZER), job)]
    ensures var t := ComboStep(s, job);
      var head := if ComboComplete(s.world.files, job.folder) then []
        else [SynthesisRequest(PromptOf(s.world.files, SYNTHESIZER), job)];
      t.world.requests == s.world.requests + head || (!t.running && t.world.requests == s.world.requests)
  {
    assert s.world.requests + [] == s.world.requests;
    if !ComboComplete(s.world.files, job.folder) {
      match LoadPersona(s.world.files, SYNTHESIZER)
      case None =>
      case Some(prompt) =>
        assert prompt == PromptOf(s.world.files, SYNTHESIZER);
        SynthesizeFrame(s.world, prompt, job);
    }
  }

  /**
   * An incomplete combo that goes through has used up the next reply, which
   * was text, and written that text as its synthesis (valid, when the reply
   * is not error text); its three copies equal their source reviews.
   */
  lemma ComboStepWrites(s: Progress, job: Job)
    requires IsCombo(job.combo)
    ensures var t := ComboStep(s, job);
      t.running && !ComboComplete(s.world.files, job.folder) ==>
        && Synthesis(job.folder) in t.world.files
        && s.world.replies != [] && s.world.replies[0].Text?
        && t.world.files[Synthesis(job.folder)] == s.world.replies[0].text
        && t.world.replies == s.world.replies[1..]
        && (NoErrorText(s.world.replies) ==> IsValidOutput(t.world.files, Synthesis(job.folder)))
        && forall j :: 0 <= j < |job.combo| ==> Copied(s.world.files, t.world.files, job.folder, job.combo, j)
  {
    var folder, combo := job.folder, job.combo;
    if !ComboComplete(s.world.files, folder) {
      match LoadPersona(s.world.files, SYNTHESIZER)
      case None =>
      case Some(prompt) =>
        var call := Ask(s.world, SynthesisRequest(prompt, job));
        match call.0
        case Failure =>
        case Text(text) =>
          var u := Progress(call.1.(files := call.1.files[Synthesis(folder) := text]), true);
          var t := CopiesFrom(u, folder, combo, 0);
          assert ComboStep(s, job) == t;
          if t.running {
            CopiesFromFrame(u, folder, combo, 0);
            CopiesFromCopies(u, folder, combo, 0);
            assert !LaterCopy(Synthesis(folder), folder, 0);
            assert Same(u.world.files, t.world.files, Synthesis(folder));
            forall j | 0 <= j < |combo| ensures Copied(s.world.files, t.world.files, folder, combo, j) {
              assert Copied(u.world.files, t.world.files, folder, combo, j);
              assert Same(s.world.files, u.world.files, ExpertReview(PERSONA_ORDER[j], combo[j]));
            }
          }
    }
  }

  // ---------------------------------------------------------------------------
  // The loop over the combos
  // ---------------------------------------------------------------------------

  /** Whether a folder is complete depends only on the files in it. */
  lemma CompleteAgree(f: Files, g: Files, folder: string)
    requires forall key :: InFolder(key, folder) ==> Same(f, g, key)
    ensures ComboComplete(f, folder) == ComboComplete(g, folder)
  {
    assert Same(f, g, Synthesis(folder));
    forall k | 0 <= k < |PERSONA_ORDER| ensures Same(f, g, ReviewCopy(folder, PERSONA_ORDER[k])) {
      assert InFolder(ReviewCopy(folder, PERSONA_ORDER[k]), folder);
    }
  }

  /** One synthesis request per job from the `i`-th on whose folder is not complete in `files`, in order. */
  function PendingSyntheses(files: Files, jobs: seq<Job>, i: nat)
    : (reqs: seq<Request>)
    requires AllAreCombos(jobs) && i <= |jobs|
    ensures |reqs| <= |jobs| - i
    decreases |jobs| - i
  {
    if i == |jobs| then []
    else
      (if ComboComplete(files, jobs[i].folder) then []
       else [SynthesisRequest(PromptOf(files, SYNTHESIZER), jobs[i])])
      + PendingSyntheses(files, jobs, i + 1)
  }

  /** The pending syntheses depend only on the synthesiser's prompt and the folders they name. */
  lemma {:induction false} PendingSynthesesAgree(f: Files, g: Files, jobs: seq<Job>, i: nat)
    requires AllAreCombos(jobs) && i <= |jobs|
    requires Same(f, g, PersonaPrompt(SYNTHESIZER))
    requires forall j :: i <= j < |jobs| ==> ComboComplete(f, jobs[j].folder) == ComboComplete(g, jobs[j].folder)
    ensures PendingSyntheses(f, jobs, i) == PendingSyntheses(g, jobs, i)
    decreases |jobs| - i
  {
    if i < |jobs| {
      var prompt := PromptOf(f, SYNTHESIZER);
      assert prompt == PromptOf(g, SYNTHESIZER);
      var head := if ComboComplete(f, jobs[i].folder) then []
        else [SynthesisRequest(prompt, jobs[i])];
      assert PendingSyntheses(f, jobs, i)
        == head + PendingSyntheses(f, jobs, i + 1);
      assert PendingSyntheses(g, jobs, i)
        == head + PendingSyntheses(g, jobs, i + 1);
      PendingSynthesesAgree(f, g, jobs, i + 1);
    }
  }

  /** No synthesis is pending exactly when every job from the `i`-th on has a complete folder. */
  lemma {:induction false} PendingSynthesesNone(files: Files, jobs: seq<Job>, i: nat)
    requires AllAreCombos(jobs) && i <= |jobs|
    ensures PendingSyntheses(files, jobs, i) == []
      <==> forall j :: i <= j < |jobs| ==> ComboComplete(files, jobs[j].folder)
    decreases |jobs| - i
  {
    if i < |jobs| {
      PendingSynthesesNone(files, jobs, i + 1);
    }
  }

  /** How many of the jobs from the `i`-th up to the `j`-th (excluded) have a folder that is not complete in `files`. */
  function IncompleteBefore(files: Files, jobs: seq<Job>, i: nat, j: nat): (n: nat)
    requires i <= j <= |jobs|
    ensures n <= j - i
    decreases j - i
  {
    if i == j then 0
    else (if ComboComplete(files, jobs[i].folder) then 0 else 1) + IncompleteBefore(files, jobs, i + 1, j)
  }

  /** The count of incomplete jobs depends only on which of their folders are complete. */
  lemma {:induction false} IncompleteBeforeAgree(f: Files, g: Files, jobs: seq<Job>, i: nat, j: nat)
    requires i <= j <= |jobs|
    requires forall k :: i <= k < j ==> ComboComplete(f, jobs[k].folder) == ComboComplete(g, jobs[k].folder)
    ensures IncompleteBefore(f, jobs, i, j) == IncompleteBefore(g, jobs, i, j)
    decreases j - i
  {
    if i < j {
      IncompleteBeforeAgree(f, g, jobs, i + 1, j);
    }
  }

  /** The pending syntheses from the `i`-th job on: its own request, if any, then those of the later jobs. */
  lemma PendingSynthesesUnfold(files: Files, jobs: seq<Job>, i: nat)
    requires AllAreCombos(jobs) && i < |jobs|
    ensures ComboComplete(files, jobs[i].folder) ==>
      PendingSyntheses(files, jobs, i) == PendingSyntheses(files, jobs, i + 1)
    ensures !ComboComplete(files, jobs[i].folder) ==>
      PendingSyntheses(files, jobs, i) == [SynthesisRequest(PromptOf(files, SYNTHESIZER), jobs[i])] + PendingSyntheses(files, jobs, i + 1)
  {
    assert [] + PendingSyntheses(files, jobs, i + 1) == PendingSyntheses(files, jobs, i + 1);
  }

  /** The pending synthesis of an incomplete `j`-th job comes after one for each incomplete job before it. */
  lemma {:induction false} PendingSynthesisAt(files: Files, jobs: seq<Job>, i: nat, j: nat)
    requires AllAreCombos(jobs) && i <= j < |jobs| && !ComboComplete(files, jobs[j].folder)
    ensures var n := IncompleteBefore(files, jobs, i, j);
      n < |PendingSyntheses(files, jobs, i)|
      && PendingSyntheses(files, jobs, i)[n] == SynthesisRequest(PromptOf(files, SYNTHESIZER), jobs[j])
    decreases j - i
  {
    PendingSynthesesUnfold(files, jobs, i);
    if i < j {
      PendingSynthesisAt(files, jobs, i + 1, j);
    }
  }

  /** The jobs from the `i`-th on write only into combo folders. */
  lemma {:induction false} CombosFromKeeps(s: Progress, jobs: seq<Job>, i: nat)
    requires AllAreCombos(jobs) && i <= |jobs|
    ensures var r := CombosFrom(s, jobs, i);
      forall key :: !InSyntheses(key) ==> Same(s.world.files, r.world.files, key)
    decreases |jobs| - i
  {
    if s.running && i < |jobs| {
      var t := ComboStep(s, jobs[i]);
      var r := CombosFrom(t, jobs, i + 1);
      assert CombosFrom(s, jobs, i) == r;
      StepKeeps(s, jobs[i]);
      CombosFromKeeps(t, jobs, i + 1);
      var f0, f1, f2 := s.world.files, t.world.files, r.world.files;
      forall key | !InSyntheses(key) ensures Same(f0, f2, key) {
        assert !InFolder(key, jobs[i].folder);
        assert Same(f0, f1, key) && Same(f1, f2, key);
      }
    }
  }

  /** The jobs from the `i`-th on keep the replies free of error text. */
  lemma {:induction false} CombosFromReplies(s: Progress, jobs: seq<Job>, i: nat)
    requires AllAreCombos(jobs) && i <= |jobs| && NoErrorText(s.world.replies)
    ensures NoErrorText(CombosFrom(s, jobs, i).world.replies)
    decreases |jobs| - i
  {
    if s.running && i < |jobs| {
      var t := ComboStep(s, jobs[i]);
      assert CombosFrom(s, jobs, i) == CombosFrom(t, jobs, i + 1);
      StepReplies(s, jobs[i]);
      CombosFromReplies(t, jobs, i + 1);
    }
  }

  /** The jobs from the `i`-th on leave alone a folder that none of them names. */
  lemma {:induction false} CombosFromSpares(s: Progress, jobs: seq<Job>, i: nat, folder: string)
    requires AllAreCombos(jobs) && i <= |jobs|
    requires forall j :: i <= j < |jobs| ==> jobs[j].folder != folder
    ensures var r := CombosFrom(s, jobs, i);
      forall key :: InFolder(key, folder) ==> Same(s.world.files, r.world.files, key)
    decreases |jobs| - i
  {
    if s.running && i < |jobs| {
      var t := ComboStep(s, jobs[i]);
      var r := CombosFrom(t, jobs, i + 1);
      assert CombosFrom(s, jobs, i) == r;
      StepKeeps(s, jobs[i]);
      CombosFromSpares(t, jobs, i + 1, folder);
      var here := jobs[i].folder;
      assert here != folder;
      var f0, f1, f2 := s.world.files, t.world.files, r.world.files;
      assert forall key :: !InFolder(key, here) ==> Same(f0, f1, key);
      assert forall key :: InFolder(key, folder) ==> Same(f1, f2, key);
      forall key | InFolder(key, folder) ensures Same(f0, f2, key) {
        assert !InFolder(key, here);
        assert Same(f0, f1, key) && Same(f1, f2, key);
      }
    }
  }

  /** The jobs from the `i`-th on never touch a folder that is complete. */
  lemma {:induction false} CombosFromKeepsComplete(s: Progress, jobs: seq<Job>, i: nat, folder: string)
    requires AllAreCombos(jobs) && i <= |jobs|
    requires ComboComplete(s.world.files, folder)
    ensures var r := CombosFrom(s, jobs, i);
      forall key :: InFolder(key, folder) ==> Same(s.world.files, r.world.files, key)
    decreases |jobs| - i
  {
    if s.running && i < |jobs| {
      var t := ComboStep(s, jobs[i]);
      var r := CombosFrom(t, jobs, i + 1);
      assert CombosFrom(s, jobs, i) == r;
      StepKeeps(s, jobs[i]);
      var here := jobs[i].folder;
      var f0, f1, f2 := s.world.files, t.world.files, r.world.files;
      assert forall key :: !InFolder(key, here) ==> Same(f0, f1, key);
      if here == folder {
        assert t == s;
      } else {
        forall key | InFolder(key, folder) ensures Same(f0, f1, key) {
          assert !InFolder(key, here);
        }
        CompleteAgree(f0, f1, folder);
      }
      CombosFromKeepsComplete(t, jobs, i + 1, folder);
      assert forall key :: InFolder(key, folder) ==> Same(f1, f2, key);
      forall key | InFolder(key, folder) ensures Same(f0, f2, key) {
        assert Same(f0, f1, key) && Same(f1, f2, key);
      }
    }
  }

  /**
   * The step on the `i`-th job changes neither whether a later job's folder
   * is complete, nor the synthesiser's prompt, nor any source review.
   */
  lemma StepKeepsLater(s: Progress, jobs: seq<Job>, i: nat)
    requires AllAreCombos(jobs) && i < |jobs| && DistinctFolders(jobs)
    ensures var t := ComboStep(s, jobs[i]);
      && (forall j :: i < j < |jobs| ==> ComboComplete(s.world.files, jobs[j].folder) == ComboComplete(t.world.files, jobs[j].folder))
      && Same(s.world.files, t.world.files, PersonaPrompt(SYNTHESIZER))
      && (forall p, run :: Same(s.world.files, t.world.files, ExpertReview(p, run)))
  {
    var t := ComboStep(s, jobs[i]);
    StepKeeps(s, jobs[i]);
    var here := jobs[i].folder;
    var f0, f1 := s.world.files, t.world.files;
    assert forall key :: !InFolder(key, here) ==> Same(f0, f1, key);
    forall j | i < j < |jobs| ensures ComboComplete(f0, jobs[j].folder) == ComboComplete(f1, jobs[j].folder) {
      var folder := jobs[j].folder;
      assert folder != here;
      forall key | InFolder(key, folder) ensures Same(f0, f1, key) {
        assert !InFolder(key, here);
      }
      CompleteAgree(f0, f1, folder);
    }
  }

  /**
   * The step on the `i`-th job asks for a prefix of its own pending request;
   * when it goes on, it has asked for all of it and left the later pending
   * requests as they were.
   */
  lemma StepAccount(s: Progress, jobs: seq<Job>, i: nat)
    requires AllAreCombos(jobs) && i < |jobs| && DistinctFolders(jobs)
    ensures var t := ComboStep(s, jobs[i]);
      var head := if ComboComplete(s.world.files, jobs[i].folder) then []
        else [SynthesisRequest(PromptOf(s.world.files, SYNTHESIZER), jobs[i])];
      && (!t.running ==> Extends(s.world.requests, t.world.requests, head))
      && (t.running ==> t.world.requests == s.world.requests + head)
      && (t.running ==> PendingSyntheses(t.world.files, jobs, i + 1) == PendingSyntheses(s.world.files, jobs, i + 1))
  {
    var t := ComboStep(s, jobs[i]);
    var head := if ComboComplete(s.world.files, jobs[i].folder) then []
      else [SynthesisRequest(PromptOf(s.world.files, SYNTHESIZER), jobs[i])];
    StepRequests(s, jobs[i]);
    if t.running {
      StepKeepsLater(s, jobs, i);
      PendingSynthesesAgree(s.world.files, t.world.files, jobs, i + 1);
    } else if t.world.requests == s.world.requests {
      ExtendsRefl(s.world.requests, head);
    } else {
      ExtendsWhole(s.world.requests, head);
    }
  }

  /** When the jobs from the `i`-th on complete, the calls made are exactly the pending syntheses. */
  lemma {:induction false} CombosFromRequests(s: Progress, jobs: seq<Job>, i: nat)
    requires AllAreCombos(jobs) && i <= |jobs| && DistinctFolders(jobs)
    ensures var r := CombosFrom(s, jobs, i);
      r.running ==> r.world.requests == s.world.requests + PendingSyntheses(s.world.files, jobs, i)
    decreases |jobs| - i
  {
    if s.running && i < |jobs| {
      var t := ComboStep(s, jobs[i]);
      var r := CombosFrom(t, jobs, i + 1);
      assert CombosFrom(s, jobs, i) == r;
      if r.running {
        assert t.running;
        StepAccount(s, jobs, i);
        CombosFromRequests(t, jobs, i + 1);
        var head := if ComboComplete(s.world.files, jobs[i].folder) then []
          else [SynthesisRequest(PromptOf(s.world.files, SYNTHESIZER), jobs[i])];
        var tail := PendingSyntheses(s.world.files, jobs, i + 1);
        assert r.world.requests == t.world.requests + tail;
        assert PendingSyntheses(s.world.files, jobs, i) == head + tail;
        AppendAssoc(s.world.requests, head, tail);
      }
    }
  }

  /**
   * The jobs from the `i`-th on call the service for a prefix of the pending
   * syntheses, however they end.
   */
  lemma {:induction false} CombosFromPrefix(s: Progress, jobs: seq<Job>, i: nat)
    requires AllAreCombos(jobs) && i <= |jobs| && DistinctFolders(jobs)
    ensures Extends(s.world.requests, CombosFrom(s, jobs, i).world.requests, PendingSyntheses(s.world.files, jobs, i))
    decreases |jobs| - i
  {
    var pending := PendingSyntheses(s.world.files, jobs, i);
    if s.running && i < |jobs| {
      var t := ComboStep(s, jobs[i]);
      var r := CombosFrom(t, jobs, i + 1);
      assert CombosFrom(s, jobs, i) == r;
      var head := if ComboComplete(s.world.files, jobs[i].folder) then []
        else [SynthesisRequest(PromptOf(s.world.files, SYNTHESIZER), jobs[i])];
      var tail := PendingSyntheses(s.world.files, jobs, i + 1);
      assert pending == head + tail;
      StepAccount(s, jobs, i);
      if t.running {
        CombosFromPrefix(t, jobs, i + 1);
      }
      JoinPrefix(s.world.requests, t, r, head, tail);
    } else {
      ExtendsRefl(s.world.requests, pending);
    }
  }

  /**
   * With valid source reviews and no error text in the replies, completed
   * jobs from the `i`-th on all end with complete folders.
   */
  lemma {:induction false} CombosFromComplete(s: Progress, jobs: seq<Job>, i: nat)
    requires AllAreCombos(jobs) && i <= |jobs| && DistinctFolders(jobs)
    requires NoErrorText(s.world.replies) && SourcesValid(s.world.files)
    ensures var r := CombosFrom(s, jobs, i);
      r.running ==> forall j :: i <= j < |jobs| ==> ComboComplete(r.world.files, jobs[j].folder)
    decreases |jobs| - i
  {
    if s.running && i < |jobs| {
      var job := jobs[i];
      var t := ComboStep(s, job);
      var r := CombosFrom(t, jobs, i + 1);
      assert CombosFrom(s, jobs, i) == r;
      if r.running {
        assert t.running;
        StepReplies(s, job);
        ComboStepWrites(s, job);
        StepKeepsLater(s, jobs, i);
        assert SourcesValid(t.world.files) by {
          forall k, run | 0 <= k < |PERSONA_ORDER| && IsRun(run) ensures IsValidOutput(t.world.files, ExpertReview(PERSONA_ORDER[k], run)) {
            assert Same(s.world.files, t.world.files, ExpertReview(PERSONA_ORDER[k], run));
          }
        }
        CombosFromComplete(t, jobs, i + 1);
        assert ComboComplete(t.world.files, job.folder) by {
          if !ComboComplete(s.world.files, job.folder) {
            forall k | 0 <= k < |PERSONA_ORDER| ensures IsValidOutput(t.world.files, ReviewCopy(job.folder, PERSONA_ORDER[k])) {
              assert Copied(s.world.files, t.world.files, job.folder, job.combo, k);
              assert IsValidOutput(s.world.files, ExpertReview(PERSONA_ORDER[k], job.combo[k]));
            }
          }
        }
        CombosFromSpares(t, jobs, i + 1, job.folder);
        CompleteAgree(t.world.files, r.world.files, job.folder);
      }
    }
  }

  /**
   * When the jobs from the `i`-th on complete, the `j`-th of them, if its
   * folder was not complete, ends with its `k`-th copy holding the text of
   * its source review.
   */
  lemma {:induction false} CombosFromCopies(s: Progress, jobs: seq<Job>, i: nat, j: nat, k: nat)
    requires AllAreCombos(jobs) && i <= j < |jobs| && DistinctFolders(jobs) && k < |PERSONA_ORDER|
    requires !ComboComplete(s.world.files, jobs[j].folder)
    ensures var r := CombosFrom(s, jobs, i);
      r.running ==> Copied(s.world.files, r.world.files, jobs[j].folder, jobs[j].combo, k)
    decreases |jobs| - i
  {
    if s.running {
      var job := jobs[i];
      var t := ComboStep(s, job);
      var r := CombosFrom(t, jobs, i + 1);
      assert CombosFrom(s, jobs, i) == r;
      if r.running {
        assert t.running;
        var f0, f1, f2 := s.world.files, t.world.files, r.world.files;
        if j == i {
          ComboStepWrites(s, job);
          CombosFromSpares(t, jobs, i + 1, job.folder);
          var dst := ReviewCopy(job.folder, PERSONA_ORDER[k]);
          assert Copied(f0, f1, job.folder, job.combo, k);
          assert InFolder(dst, job.folder);
          assert Same(f1, f2, dst);
        } else {
          StepKeepsLater(s, jobs, i);
          assert !ComboComplete(f1, jobs[j].folder);
          CombosFromCopies(t, jobs, i + 1, j, k);
          assert Copied(f1, f2, jobs[j].folder, jobs[j].combo, k);
          assert Same(f0, f1, ExpertReview(PERSONA_ORDER[k], jobs[j].combo[k]));
        }
      }
    }
  }

  /**
   * When the jobs from the `i`-th on complete, the `j`-th of them, if its
   * folder was not complete, ends with the synthesis its own reply gave: the
   * reply that comes after one for each incomplete job before it.
   */
  lemma {:induction false} CombosFromSyntheses(s: Progress, jobs: seq<Job>, i: nat, j: nat)
    requires AllAreCombos(jobs) && i <= j < |jobs| && DistinctFolders(jobs)
    requires !ComboComplete(s.world.files, jobs[j].folder)
    ensures var r := CombosFrom(s, jobs, i);
      var n := IncompleteBefore(s.world.files, jobs, i, j);
      r.running ==>
        && n < |s.world.replies| && s.world.replies[n].Text?
        && Synthesis(jobs[j].folder) in r.world.files
        && r.world.files[Synthesis(jobs[j].folder)] == s.world.replies[n].text
    decreases |jobs| - i
  {
    if s.running {
      var job := jobs[i];
      var t := ComboStep(s, job);
      var r := CombosFrom(t, jobs, i + 1);
      assert CombosFrom(s, jobs, i) == r;
      if r.running {
        assert t.running;
        if j == i {
          ComboStepWrites(s, job);
          CombosFromSpares(t, jobs, i + 1, job.folder);
          assert InFolder(Synthesis(job.folder), job.folder);
          assert Same(t.world.files, r.world.files, Synthesis(job.folder));
        } else {
          StepKeepsLater(s, jobs, i);
          assert !ComboComplete(t.world.files, jobs[j].folder);
          CombosFromSyntheses(t, jobs, i + 1, j);
          IncompleteBeforeAgree(s.world.files, t.world.files, jobs, i + 1, j);
          if !ComboComplete(s.world.files, job.folder) {
            ComboStepWrites(s, job);
          }
        }
      }
    }
  }

  /** Jobs whose folders are all complete make no call and change nothing. */
  lemma {:induction false} CombosFromIdle(s: Progress, jobs: seq<Job>, i: nat)
    requires AllAreCombos(jobs) && i <= |jobs| && s.running
    requires forall j :: i <= j < |jobs| ==> ComboComplete(s.world.files, jobs[j].folder)
    ensures CombosFrom(s, jobs, i) == s
    decreases |jobs| - i
  {
    if i < |jobs| {
      assert ComboStep(s, jobs[i]) == s;
      CombosFromIdle(s, jobs, i + 1);
    }
  }

  // ---------------------------------------------------------------------------
  // What phase 2 guarantees
  // ---------------------------------------------------------------------------

  /** The job phase 2 runs for `c` is the `j`-th; it works in the folder `c`'s label names. */
  lemma JobOfCombo(callText: string, proposalText: string, reviews: Reviews, c: seq<int>) returns (j: nat)
    requires ReviewsAvailable(reviews) && IsCombo(c)
    ensures var jobs := Phase2Jobs(callText, proposalText, reviews);
      j < |jobs| && jobs[j].combo == c && jobs[j].folder == ComboLabel(c)
  {
    AllCombosFacts();
    AllJobs(callText, proposalText, reviews);
    var combos := AllCombos();
    j :| 0 <= j < |combos| && combos[j] == c;
  }

  /** Every job of phase 2 works in the folder its combo's label names. */
  lemma FolderOfJob(callText: string, proposalText: string, reviews: Reviews, j: nat)
    requires ReviewsAvailable(reviews) && j < 27
    ensures var jobs := Phase2Jobs(callText, proposalText, reviews);
      IsCombo(jobs[j].combo) && jobs[j].folder == ComboLabel(jobs[j].combo)
  {
    AllJobs(callText, proposalText, reviews);
  }

  /** Phase 2 writes only under the syntheses directory: every other file keeps its text. */
  lemma Phase2KeepsOtherFiles(w: World, callText: string, proposalText: string, reviews: Reviews)
    requires ReviewsAvailable(reviews)
    ensures var r := Phase2Spec(w, callText, proposalText, reviews);
      forall key :: !InSyntheses(key) ==> Same(w.files, r.world.files, key)
  {
    CombosFromKeeps(Progress(w, true), Phase2Jobs(callText, proposalText, reviews), 0);
  }

  /** A combo folder that is complete when phase 2 starts is left exactly as it was. */
  lemma Phase2KeepsCompleteFolder(w: World, callText: string, proposalText: string, reviews: Reviews, folder: string)
    requires ReviewsAvailable(reviews) && ComboComplete(w.files, folder)
    ensures var r := Phase2Spec(w, callText, proposalText, reviews);
      forall key :: InFolder(key, folder) ==> Same(w.files, r.world.files, key)
  {
    CombosFromKeepsComplete(Progress(w, true), Phase2Jobs(callText, proposalText, reviews), 0, folder);
  }

  /**
   * Whether phase 2 completes or stops at a failure, its calls are a prefix
   * of the pending syntheses: one per combo that was not complete, in combo
   * order, each with the synthesiser's prompt and that combo's message; so a
   * complete folder is never asked for again, and there are at most 27 calls.
   * A completed phase 2 makes all of them.
   */
  lemma Phase2Requests(w: World, callText: string, proposalText: string, reviews: Reviews)
    requires ReviewsAvailable(reviews)
    ensures var r := Phase2Spec(w, callText, proposalText, reviews);
      && Extends(w.requests, r.world.requests, PendingSyntheses(w.files, Phase2Jobs(callText, proposalText, reviews), 0))
      && |r.world.requests| <= |w.requests| + 27
    ensures var r := Phase2Spec(w, callText, proposalText, reviews);
      r.running ==> r.world.requests == w.requests + PendingSyntheses(w.files, Phase2Jobs(callText, proposalText, reviews), 0)
  {
    CombosFromRequests(Progress(w, true), Phase2Jobs(callText, proposalText, reviews), 0);
    CombosFromPrefix(Progress(w, true), Phase2Jobs(callText, proposalText, reviews), 0);
  }

  /** Every job of phase 2 has a complete folder exactly when every combo has. */
  lemma JobsCompleteIff(files: Files, callText: string, proposalText: string, reviews: Reviews)
    requires ReviewsAvailable(reviews)
    ensures var jobs := Phase2Jobs(callText, proposalText, reviews);
      (forall j :: 0 <= j < |jobs| ==> ComboComplete(files, jobs[j].folder))
      <==> forall c :: IsCombo(c) ==> ComboComplete(files, ComboLabel(c))
  {
    var jobs := Phase2Jobs(callText, proposalText, reviews);
    if forall c :: IsCombo(c) ==> ComboComplete(files, ComboLabel(c)) {
      forall j | 0 <= j < |jobs| ensures ComboComplete(files, jobs[j].folder) {
        FolderOfJob(callText, proposalText, reviews, j);
      }
    }
    if forall j :: 0 <= j < |jobs| ==> ComboComplete(files, jobs[j].folder) {
      forall c | IsCombo(c) ensures ComboComplete(files, ComboLabel(c)) {
        var j := JobOfCombo(callText, proposalText, reviews, c);
      }
    }
  }

  /** A completed phase 2 makes no call at all exactly when every combo was already complete. */
  lemma Phase2CallsIffIncomplete(w: World, callText: string, proposalText: string, reviews: Reviews)
    requires ReviewsAvailable(reviews)
    ensures var r := Phase2Spec(w, callText, proposalText, reviews);
      r.running ==> (r.world.requests == w.requests <==> forall c :: IsCombo(c) ==> ComboComplete(w.files, ComboLabel(c)))
  {
    var jobs := Phase2Jobs(callText, proposalText, reviews);
    var r := Phase2Spec(w, callText, proposalText, reviews);
    Phase2Requests(w, callText, proposalText, reviews);
    PendingSynthesesNone(w.files, jobs, 0);
    JobsCompleteIff(w.files, callText, proposalText, reviews);
    if r.running {
      var pending := PendingSyntheses(w.files, jobs, 0);
      assert |r.world.requests| == |w.requests| + |pending|;
      if pending == [] {
        assert r.world.requests == w.requests + [];
      }
    }
  }

  /**
   * With every source review valid and no error text among the replies, a
   * completed phase 2 leaves every combo's folder complete.
   */
  lemma Phase2CompletesAllCombos(w: World, callText: string, proposalText: string, reviews: Reviews)
    requires ReviewsAvailable(reviews) && NoErrorText(w.replies) && SourcesValid(w.files)
    ensures var r := Phase2Spec(w, callText, proposalText, reviews);
      r.running ==> forall c :: IsCombo(c) ==> ComboComplete(r.world.files, ComboLabel(c))
  {
    var jobs := Phase2Jobs(callText, proposalText, reviews);
    CombosFromComplete(Progress(w, true), jobs, 0);
    forall c | IsCombo(c) ensures Phase2Spec(w, callText, proposalText, reviews).running ==> ComboComplete(Phase2Spec(w, callText, proposalText, reviews).world.files, ComboLabel(c)) {
      var j := JobOfCombo(callText, proposalText, reviews, c);
    }
  }

  /**
   * In a completed phase 2, every combo that was not complete ends with each
   * persona's copy holding the text of the review of that persona's run.
   */
  lemma Phase2CopiesSources(w: World, callText: string, proposalText: string, reviews: Reviews)
    requires ReviewsAvailable(reviews)
    ensures var r := Phase2Spec(w, callText, proposalText, reviews);
      r.running ==> forall c, k :: IsCombo(c) && !ComboComplete(w.files, ComboLabel(c)) && 0 <= k < |PERSONA_ORDER| ==>
        Copied(w.files, r.world.files, ComboLabel(c), c, k)
  {
    var jobs := Phase2Jobs(callText, proposalText, reviews);
    var r := Phase2Spec(w, callText, proposalText, reviews);
    forall c, k | IsCombo(c) && !ComboComplete(w.files, ComboLabel(c)) && 0 <= k < |PERSONA_ORDER|
      ensures r.running ==> Copied(w.files, r.world.files, ComboLabel(c), c, k)
    {
      var j := JobOfCombo(callText, proposalText, reviews, c);
      CombosFromCopies(Progress(w, true), jobs, 0, j, k);
    }
  }

  /**
   * In a completed phase 2, every combo that was not complete holds a new
   * synthesis: if `n` combos before it were incomplete, its request is the
   * `n`-th pending synthesis, the `n`-th reply is text, and that text is
   * what its `SYNTHESIS.md` holds.
   */
  lemma Phase2WritesReplies(w: World, callText: string, proposalText: string, reviews: Reviews)
    requires ReviewsAvailable(reviews)
    ensures var jobs := Phase2Jobs(callText, proposalText, reviews);
      var r := Phase2Spec(w, callText, proposalText, reviews);
      r.running ==> forall j :: 0 <= j < |jobs| && !ComboComplete(w.files, jobs[j].folder) ==>
        var n := IncompleteBefore(w.files, jobs, 0, j);
        && n < |PendingSyntheses(w.files, jobs, 0)|
        && PendingSyntheses(w.files, jobs, 0)[n] == SynthesisRequest(PromptOf(w.files, SYNTHESIZER), jobs[j])
        && n < |w.replies| && w.replies[n].Text?
        && Synthesis(jobs[j].folder) in r.world.files
        && r.world.files[Synthesis(jobs[j].folder)] == w.replies[n].text
  {
    var jobs := Phase2Jobs(callText, proposalText, reviews);
    forall j | 0 <= j < |jobs| && !ComboComplete(w.files, jobs[j].folder)
      ensures var n := IncompleteBefore(w.files, jobs, 0, j);
        && n < |PendingSyntheses(w.files, jobs, 0)|
        && PendingSyntheses(w.files, jobs, 0)[n] == SynthesisRequest(PromptOf(w.files, SYNTHESIZER), jobs[j])
        && (Phase2Spec(w, callText, proposalText, reviews).running ==>
          && n < |w.replies| && w.replies[n].Text?
          && Synthesis(jobs[j].folder) in Phase2Spec(w, callText, proposalText, reviews).world.files
          && Phase2Spec(w, callText, proposalText, reviews).world.files[Synthesis(jobs[j].folder)] == w.replies[n].text)
    {
      PendingSynthesisAt(w.files, jobs, 0, j);
      CombosFromSyntheses(Progress(w, true), jobs, 0, j);
    }
  }

  /** When every combo is already complete, phase 2 makes no call, writes nothing and returns. */
  lemma Phase2IdleWhenComplete(w: World, callText: string, proposalText: string, reviews: Reviews)
    requires ReviewsAvailable(reviews)
    requires forall c :: IsCombo(c) ==> ComboComplete(w.files, ComboLabel(c))
    ensures Phase2Spec(w, callText, proposalText, reviews) == Progress(w, true)
  {
    JobsCompleteIff(w.files, callText, proposalText, reviews);
    CombosFromIdle(Progress(w, true), Phase2Jobs(callText, proposalText, reviews), 0);
  }
}

=== FILE: pipeline.dfy ===
/**
 * The review engine's `main`, from the moment both documents are loaded:
 * build the shared context, run phase 1, then run phase 2 with the dict of
 * reviews phase 1 returned. A phase that aborts aborts the whole run.
 *
 * `RunSpec` is the reference definition; `RunGauntlet` is the script's
 * sequence of calls, proved equal to it. The lemmas state what the script's
 * docstring promises of a whole run: a completed run over well-behaved
 * replies leaves every output valid, and running the script again afterwards
 * skips everything.
 */
module Pipeline {
  import opened Store
  import opened Service
  import opened Gauntlet
  import opened Phase1
  import opened Phase2

  /** The dict of reviews the files hold: `{persona: {run: text}}` for the review files that exist. */
  function ReviewsOf(files: Files): (reviews: Reviews)
    ensures forall p :: p in reviews <==> p in PERSONA_ORDER
    ensures forall p, run :: p in PERSONA_ORDER && IsRun(run) && ExpertReview(p, run) in files ==>
      HasReview(reviews, p, run) && reviews[p][run] == files[ExpertReview(p, run)]
  {
    map p | p in PERSONA_ORDER ::
      map run | 1 <= run < |TEMPERATURES| + 1 && ExpertReview(p, run) in files :: files[ExpertReview(p, run)]
  }

  /** The dict phase 1 returns is the dict its review files hold, and phase 2 finds every review in it. */
  lemma ReturnedReviews(reviews: Reviews, files: Files)
    requires ReviewsMatch(reviews, files)
    ensures reviews == ReviewsOf(files)
    ensures ReviewsAvailable(reviews)
  {
    var other := ReviewsOf(files);
    forall p | p in PERSONA_ORDER ensures reviews[p] == other[p] {
      assert Filled(reviews[p], files, p, |TEMPERATURES| + 1);
      forall run | run in reviews[p] ensures run in other[p] && reviews[p][run] == other[p][run] {
        assert ExpertReview(p, run) in files;
      }
    }
    forall k, run | 0 <= k < |PERSONA_ORDER| && IsRun(run) ensures HasReview(reviews, PERSONA_ORDER[k], run) {
      assert Filled(reviews[PERSONA_ORDER[k]], files, PERSONA_ORDER[k], |TEMPERATURES| + 1);
    }
  }

  /** Once all 9 review files exist, phase 2 finds every review in the dict they hold. */
  lemma ReviewsOfAvailable(files: Files)
    requires forall key :: IsLeafKey(key) ==> key in files
    ensures ReviewsAvailable(ReviewsOf(files))
  {
    forall k, run | 0 <= k < |PERSONA_ORDER| && IsRun(run) ensures HasReview(ReviewsOf(files), PERSONA_ORDER[k], run) {
      assert IsLeafKey(ExpertReview(PERSONA_ORDER[k], run));
    }
  }

  /** What `main` does to the world once the two documents are loaded, and whether it finishes. */
  function RunSpec(w: World, callText: string, proposalText: string): Progress {
    var first := Phase1Spec(w, BuildContext(callText, proposalText));
    if !first.running then first
    else
      Phase1WritesAllReviews(w, BuildContext(callText, proposalText));
      ReviewsOfAvailable(first.world.files);
      Phase2Spec(first.world, callText, proposalText, ReviewsOf(first.world.files))
  }

  /** `main` after the documents are loaded: phase 1, then phase 2 over the dict phase 1 returned. */
  method RunGauntlet(fs: FileStore, client: Client, callText: string, proposalText: string) returns (completed: bool)
    modifies fs, client
    ensures Progress(Now(fs, client), completed) == RunSpec(old(Now(fs, client)), callText, proposalText)
  {
    var context := BuildContext(callText, proposalText);
    var reviews, ok := RunPhase1(fs, client, context);
    if !ok {
      return false;
    }
    ReturnedReviews(reviews, fs.files);
    completed := RunPhase2(fs, client, callText, proposalText, reviews);
  }

  /** The files a completed run promises: 9 valid reviews and 27 complete combo folders. */
  ghost predicate AllOutputsValid(files: Files) {
    && (forall key :: IsLeafKey(key) ==> IsValidOutput(files, key))
    && (forall c :: IsCombo(c) ==> ComboComplete(files, ComboLabel(c)))
  }

  /** The persona prompts all exist in `files`. */
  ghost predicate PromptsPresent(files: Files) {
    forall p <- PERSONA_ORDER :: PersonaPrompt(p) in files
  }

  /**
   * If no reply is error text, a completed phase 1 leaves the 9 reviews
   * valid, the prompts present and the replies still free of error text.
   */
  lemma Phase1Outputs(w: World, context: string)
    requires NoErrorText(w.replies)
    ensures var first := Phase1Spec(w, context);
      first.running ==>
        && NoErrorText(first.world.replies)
        && (forall key :: IsLeafKey(key) ==> IsValidOutput(first.world.files, key))
        && SourcesValid(first.world.files)
        && PromptsPresent(first.world.files)
  {
    var first := Phase1Spec(w, context);
    Phase1LeavesValidFiles(w, context);
    Phase1KeepsValidFiles(w, context);
    if first.running {
      var f0, f1 := w.files, first.world.files;
      forall k, run | 0 <= k < |PERSONA_ORDER| && IsRun(run) ensures IsValidOutput(f1, ExpertReview(PERSONA_ORDER[k], run)) {
        assert IsLeafKey(ExpertReview(PERSONA_ORDER[k], run));
      }
      forall p <- PERSONA_ORDER ensures PersonaPrompt(p) in f1 {
        assert !IsLeafKey(PersonaPrompt(p));
        assert Same(f0, f1, PersonaPrompt(p));
      }
    }
  }

  /**
   * Started on valid reviews and present prompts with no error text to come,
   * a completed phase 2 leaves every output valid and the prompts present.
   */
  lemma Phase2Outputs(w: World, callText: string, proposalText: string, reviews: Reviews)
    requires ReviewsAvailable(reviews) && NoErrorText(w.replies)
    requires (forall key :: IsLeafKey(key) ==> IsValidOutput(w.files, key)) && SourcesValid(w.files) && PromptsPresent(w.files)
    ensures var r := Phase2Spec(w, callText, proposalText, reviews);
      r.running ==> AllOutputsValid(r.world.files) && PromptsPresent(r.world.files)
  {
    var r := Phase2Spec(w, callText, proposalText, reviews);
    Phase2CompletesAllCombos(w, callText, proposalText, reviews);
    Phase2KeepsOtherFiles(w, callText, proposalText, reviews);
    var f1, f2 := w.files, r.world.files;
    forall key | IsLeafKey(key) ensures IsValidOutput(f2, key) {
      assert Same(f1, f2, key);
    }
    forall p <- PERSONA_ORDER ensures PersonaPrompt(p) in f2 {
      assert Same(f1, f2, PersonaPrompt(p));
    }
  }

  /**
   * If no reply of the service is error text, a completed run leaves every
   * review and every combo folder valid and keeps the persona prompts.
   */
  lemma RunLeavesAllValid(w: World, callText: string, proposalText: string)
    requires NoErrorText(w.replies)
    ensures var r := RunSpec(w, callText, proposalText);
      r.running ==> AllOutputsValid(r.world.files) && PromptsPresent(r.world.files)
  {
    var context := BuildContext(callText, proposalText);
    var first := Phase1Spec(w, context);
    Phase1Outputs(w, context);
    if first.running {
      Phase1WritesAllReviews(w, context);
      ReviewsOfAvailable(first.world.files);
      Phase2Outputs(first.world, callText, proposalText, ReviewsOf(first.world.files));
    }
  }

  /**
   * Over files where every output is valid and every persona prompt exists,
   * a run makes no call, writes nothing and finishes, whatever the service
   * would have answered.
   */
  lemma RunIdleWhenAllValid(w: World, callText: string, proposalText: string)
    requires AllOutputsValid(w.files) && PromptsPresent(w.files)
    ensures RunSpec(w, callText, proposalText) == Progress(w, true)
  {
    var context := BuildContext(callText, proposalText);
    Phase1IdempotentWhenAllValid(w, context);
    Phase1WritesAllReviews(w, context);
    ReviewsOfAvailable(w.files);
    Phase2IdleWhenComplete(w, callText, proposalText, ReviewsOf(w.files));
  }

  /**
   * Resumability: after a completed run whose replies held no error text, a
   * second run over the files it left, with any replies at all, makes no
   * call and changes nothing.
   */
  lemma RerunIsIdle(w: World, callText: string, proposalText: string, replies: seq<Reply>, requests: seq<Request>)
    requires NoErrorText(w.replies) && RunSpec(w, callText, proposalText).running
    ensures var again := World(RunSpec(w, callText, proposalText).world.files, replies, requests);
      RunSpec(again, callText, proposalText) == Progress(again, true)
  {
    RunLeavesAllValid(w, callText, proposalText);
    RunIdleWhenAllValid(World(RunSpec(w, callText, proposalText).world.files, replies, requests), callText, proposalText);
  }
}

=== FILE: store.dfy ===
/**
 * The filesystem both scripts work against, seen as a map from file to text.
 * A file is named by what its path encodes; the only string inside a key that
 * the scripts compute themselves is the synthesis folder label, so whether two
 * combos share a folder is exactly whether their labels coincide.
 */
module Store {
  import opened Strings

  datatype Key =
    | PersonaPrompt(name: string)                  // personas/<name>.md
    | ExpertReview(persona: string, run: int)      // outputs/expert_reviews/<persona>/run_<run>.md
    | Synthesis(folder: string)                    // outputs/syntheses/<folder>/SYNTHESIS.md
    | ReviewCopy(folder: string, persona: string)  // outputs/syntheses/<folder>/<persona>_review.md
    | Generated(filename: string)                  // <factory output dir>/<filename>

  type Files = map<Key, string>

  /** The marker an error placeholder starts with. */
  const ERROR_PREFIX: string := "[ERROR"

  predicate IsErrorText(text: string) {
    StartsWith(text, ERROR_PREFIX)
  }

  /**
   * `is_valid_output`: the file exists and does not start with the error
   * marker; any other content, however malformed, is usable.
   */
  predicate IsValidOutput(files: Files, key: Key) {
    key in files && !IsErrorText(files[key])
  }

  /** `key` is absent from both or holds the same text in both. */
  predicate Same(f: Files, g: Files, key: Key) {
    (key in f <==> key in g) && (key in f ==> f[key] == g[key])
  }

  /** The filesystem as the scripts see it: whole-file reads and overwrites. */
  class FileStore {
    var files: Files

    constructor (initial: Files)
      ensures files == initial
    {
      files := initial;
    }

    /** `Path.exists`. */
    method Exists(key: Key) returns (b: bool)
      ensures b <==> key in files
    {
      b := key in files;
    }

    /** `Path.read_text`. */
    method ReadText(key: Key) returns (text: string)
      requires key in files
      ensures text == files[key]
    {
      text := files[key];
    }

    /** `Path.write_text`: creates or overwrites the whole file. */
    method WriteText(key: Key, text: string)
      modifies this
      ensures files == old(files)[key := text]
    {
      files := files[key := text];
    }

    /** `is_valid_output`, reading the file the way the script does. */
    method IsValid(key: Key) returns (b: bool)
      ensures b == IsValidOutput(files, key)
    {
      var present := Exists(key);
      if !present {
        return false;
      }
      var text := ReadText(key);
      b := !StartsWith(text, ERROR_PREFIX);
    }

    /**
     * `shutil.copy2(src, dst)`: overwrites `dst` with the text of `src`; a
     * missing `src` raises, which the model reports as `ok == false` with
     * nothing written.
     */
    method Copy(src: Key, dst: Key) returns (ok: bool)
      modifies this
      ensures ok <==> src in old(files)
      ensures files == if ok then old(files)[dst := old(files)[src]] else old(files)
    {
      ok := src in files;
      if ok {
        files := files[dst := files[src]];
      }
    }
  }
}

/**
 * The generation service (the Anthropic client) as an oracle: it answers each
 * request with the next reply of a script fixed in advance, or fails. An
 * exhausted script fails. Every request made is logged, in order.
 */
module Service {
  import opened Strings
  import opened Store

  datatype Request =
    | Message(system: string, user: string, temperature: string, maxTokens: nat)
      // messages.create(system=..., messages=[user], temperature=..., max_tokens=...)
    | InstantiateTemplate(topic: string, template: string, temperature: string, maxTokens: nat)
      // the persona factory's single-message prompt built around a topic and a template

  datatype Reply = Text(text: string) | Failure

  function NextReply(replies: seq<Reply>): Reply {
    if replies == [] then Failure else replies[0]
  }

  function Remaining(replies: seq<Reply>): (rest: seq<Reply>)
    ensures |rest| == if replies == [] then 0 else |replies| - 1
  {
    if replies == [] then [] else replies[1..]
  }

  /** No reply of the script is text that begins with the error marker. */
  predicate NoErrorText(replies: seq<Reply>) {
    replies == [] || ((replies[0].Text? ==> !IsErrorText(replies[0].text)) && NoErrorText(replies[1..]))
  }

  /** Everything a run can change: the files, the unused replies and the request log. */
  datatype World = World(files: Files, replies: seq<Reply>, requests: seq<Request>)

  /** One call: the next reply comes back, one reply is used up and the request is logged. */
  function Ask(w: World, req: Request): (out: (Reply, World))
    ensures out.1.files == w.files
    ensures out.1.requests == w.requests + [req]
    ensures out.0 == NextReply(w.replies) && out.1.replies == Remaining(w.replies)
    ensures NoErrorText(w.replies) ==> NoErrorText(out.1.replies)
    ensures NoErrorText(w.replies) && out.0.Text? ==> !IsErrorText(out.0.text)
  {
    (NextReply(w.replies), w.(replies := Remaining(w.replies), requests := w.requests + [req]))
  }

  class Client {
    var replies: seq<Reply>
    var requests: seq<Request>

    constructor (script: seq<Reply>)
      ensures replies == script && requests == []
    {
      replies := script;
      requests := [];
    }

    /** `messages.create`: returns the next scripted reply; `Failure` stands for a raised exception. */
    method Create(req: Request) returns (reply: Reply)
      modifies this
      ensures reply == NextReply(old(replies))
      ensures replies == Remaining(old(replies))
      ensures requests == old(requests) + [req]
    {
      reply := NextReply(replies);
      replies := Remaining(replies);
      requests := requests + [req];
    }
  }

  /** Request logs grow by appending; this regroups two appends. */
  lemma AppendAssoc(a: seq<Request>, b: seq<Request>, c: seq<Request>)
    ensures (a + b) + c == a + (b + c)
  {
  }

  /**
   * The log `after` is the log `before` followed by the first few requests of
   * `pending`: what a run that may stop part-way through has asked for.
   */
  predicate Extends(before: seq<Request>, after: seq<Request>, pending: seq<Request>) {
    |before| <= |after| <= |before| + |pending| && after == before + pending[..|after| - |before|]
  }

  lemma ExtendsRefl(log: seq<Request>, pending: seq<Request>)
    ensures Extends(log, log, pending)
  {
    assert log + pending[..0] == log;
  }

  lemma ExtendsWhole(log: seq<Request>, pending: seq<Request>)
    ensures Extends(log, log + pending, pending)
  {
    assert pending[..|pending|] == pending;
  }

  /** Having asked for a prefix of `pending`, a run has asked for a prefix of any longer list too. */
  lemma ExtendsMore(before: seq<Request>, after: seq<Request>, pending: seq<Request>, more: seq<Request>)
    requires Extends(before, after, pending)
    ensures Extends(before, after, pending + more)
  {
    assert (pending + more)[..|after| - |before|] == pending[..|after| - |before|];
  }

  /**
   * One step that asks for a prefix of `head` and stops, or for all of it and
   * goes on to a rest that asks for a prefix of `tail`: together they ask for
   * a prefix of `head + tail`.
   */
  lemma JoinPrefix(before: seq<Request>, t: Progress, r: Progress, head: seq<Request>, tail: seq<Request>)
    requires !t.running ==> r == t && Extends(before, t.world.requests, head)
    requires t.running ==> t.world.requests == before + head && Extends(t.world.requests, r.world.requests, tail)
    ensures Extends(before, r.world.requests, head + tail)
  {
    if t.running {
      ExtendsChain(before, head, r.world.requests, tail);
    } else {
      ExtendsMore(before, t.world.requests, head, tail);
    }
  }

  /** Asking for all of `head`, then for a prefix of `tail`, is asking for a prefix of `head + tail`. */
  lemma ExtendsChain(before: seq<Request>, head: seq<Request>, after: seq<Request>, tail: seq<Request>)
    requires Extends(before + head, after, tail)
    ensures Extends(before, after, head + tail)
  {
    var n := |after| - |before| - |head|;
    assert (head + tail)[..|head| + n] == head + tail[..n];
    AppendAssoc(before, head, tail[..n]);
  }

  /** Where a run of the script is: the world, and whether it is still going. */
  datatype Progress = Progress(world: World, running: bool)

  /** The world the objects `fs` and `client` hold now. */
  ghost function Now(fs: FileStore, client: Client): World
    reads fs, client
  {
    World(fs.files, client.replies, client.requests)
  }
}

=== FILE: strings.dfy ===
/**
 * The few pieces of Python's `str` that both scripts rely on: `startswith`,
 * `strip` (with and without an explicit character set), `join`, `str(int)`,
 * ASCII `upper`/`lower` and `replace` of one character.
 */
module Strings {

  predicate StartsWith(s: string, prefix: string) {
    |prefix| <= |s| && s[..|prefix|] == prefix
  }

  predicate EndsWith(s: string, suffix: string) {
    |suffix| <= |s| && s[|s| - |suffix|..] == suffix
  }

  /** `str.isspace()` of one character: every code point Python counts as whitespace. */
  predicate IsSpace(c: char) {
    var n := c as int;
    (9 <= n <= 13) || (28 <= n <= 32) || n == 0x85 || n == 0xA0 || n == 0x1680
    || (0x2000 <= n <= 0x200A) || n == 0x2028 || n == 0x2029 || n == 0x202F
    || n == 0x205F || n == 0x3000
  }

  /** The characters a `strip` removes: whitespace for `s.strip()`, those of `chars` for `s.strip(chars)`. */
  datatype Cut = Whitespace | Chars(chars: string)

  predicate Drops(cut: Cut, c: char) {
    match cut
    case Whitespace => IsSpace(c)
    case Chars(chars) => c in chars
  }

  /** Left half of `str.strip`: removes the leading characters of `cut`. */
  function TrimStart(s: string, cut: Cut): (r: string)
    ensures |r| <= |s| && r == s[|s| - |r|..]
    ensures forall i :: 0 <= i < |s| - |r| ==> Drops(cut, s[i])
    ensures r == [] || !Drops(cut, r[0])
  {
    if s != [] && Drops(cut, s[0]) then
      var r := TrimStart(s[1..], cut);
      assert s[1..][|s| - 1 - |r|..] == s[|s| - |r|..];
      assert forall i :: 1 <= i < |s| - |r| ==> s[i] == s[1..][i - 1];
      r
    else s
  }

  /** Right half of `str.strip`: removes the trailing characters of `cut`. */
  function TrimEnd(s: string, cut: Cut): (r: string)
    ensures |r| <= |s| && r == s[..|r|]
    ensures forall i :: |r| <= i < |s| ==> Drops(cut, s[i])
    ensures r == [] || !Drops(cut, r[|r| - 1])
  {
    if s != [] && Drops(cut, s[|s| - 1]) then
      var r := TrimEnd(s[..|s| - 1], cut);
      assert s[..|s| - 1][..|r|] == s[..|r|];
      assert forall i :: |r| <= i < |s| - 1 ==> s[i] == s[..|s| - 1][i];
      r
    else s
  }

  /** Neither end of `s` is a character of `cut`. */
  predicate NoEdge(s: string, cut: Cut) {
    s == [] || (!Drops(cut, s[0]) && !Drops(cut, s[|s| - 1]))
  }

  /** `s.strip()` or `s.strip(chars)`, as `cut` says. */
  function StripBy(s: string, cut: Cut): (r: string)
    ensures NoEdge(r, cut) && |r| <= |s|
  {
    var t := TrimStart(s, cut);
    var r := TrimEnd(t, cut);
    assert r == [] || r[0] == t[0];
    r
  }

  /** `strip` leaves alone a string that has nothing to strip. */
  lemma StripByNoEdge(s: string, cut: Cut)
    requires NoEdge(s, cut)
    ensures StripBy(s, cut) == s
  {
    assert TrimStart(s, cut) == s;
    assert TrimEnd(s, cut) == s;
  }

  /** Every character of `s` is one of `cut`. */
  predicate AllDropped(s: string, cut: Cut) {
    forall i :: 0 <= i < |s| ==> Drops(cut, s[i])
  }

  /** What `TrimStart` removes is all of `cut`. */
  lemma TrimStartDropped(s: string, cut: Cut)
    ensures AllDropped(s[..|s| - |TrimStart(s, cut)|], cut)
  {
    var x := s[..|s| - |TrimStart(s, cut)|];
    assert forall i :: 0 <= i < |x| ==> x[i] == s[i];
  }

  /** What `TrimEnd` removes is all of `cut`. */
  lemma TrimEndDropped(t: string, cut: Cut)
    ensures AllDropped(t[|TrimEnd(t, cut)|..], cut)
  {
    var r := TrimEnd(t, cut);
    var y := t[|r|..];
    assert forall i :: 0 <= i < |y| ==> y[i] == t[|r| + i];
  }

  /** Cutting a string in two and putting the halves back together gives it back. */
  lemma SplitAt(s: string, k: nat)
    requires k <= |s|
    ensures s == s[..k] + s[k..]
  {
  }

  lemma Regroup(a: string, b: string, c: string)
    ensures a + (b + c) == a + b + c
  {
  }

  lemma AllDroppedConcat(a: string, b: string, cut: Cut)
    requires AllDropped(a, cut) && AllDropped(b, cut)
    ensures AllDropped(a + b, cut)
  {
    assert forall i :: |a| <= i < |a + b| ==> (a + b)[i] == b[i - |a|];
  }

  /**
   * What `strip` keeps: `s` is the kept text with only characters of `cut`
   * before and after it.
   */
  lemma StripSplit(s: string, cut: Cut) returns (x: string, y: string)
    ensures s == x + StripBy(s, cut) + y
    ensures AllDropped(x, cut) && AllDropped(y, cut)
    ensures StripBy(s, cut) == [] ==> x == []
  {
    var t := TrimStart(s, cut);
    var r := TrimEnd(t, cut);
    assert StripBy(s, cut) == r;
    var front, back := s[..|s| - |t|], t[|r|..];
    TrimStartDropped(s, cut);
    TrimEndDropped(t, cut);
    SplitAt(s, |s| - |t|);
    SplitAt(t, |r|);
    Regroup(front, r, back);
    if r == [] {
      AllDroppedConcat(front, back, cut);
      x, y := [], s;
      Regroup([], [], s);
    } else {
      x, y := front, back;
    }
  }

  /** `TrimStart` removes exactly a leading run of `cut` that stops before a character it keeps. */
  lemma TrimStartOf(x: string, t: string, cut: Cut)
    requires AllDropped(x, cut)
    requires t == [] || !Drops(cut, t[0])
    ensures TrimStart(x + t, cut) == t
  {
    var s := x + t;
    var u := TrimStart(s, cut);
    assert forall i :: 0 <= i < |x| ==> Drops(cut, s[i]);
    if t == [] {
      assert s == x;
    } else {
      assert !Drops(cut, s[|x|]);
      assert u != [] && u[0] == s[|s| - |u|];
    }
  }

  /** `TrimEnd` removes exactly a trailing run of `cut` that starts after a character it keeps. */
  lemma TrimEndOf(t: string, y: string, cut: Cut)
    requires AllDropped(y, cut)
    requires t == [] || !Drops(cut, t[|t| - 1])
    ensures TrimEnd(t + y, cut) == t
  {
    var s := t + y;
    var u := TrimEnd(s, cut);
    assert forall i :: |t| <= i < |s| ==> Drops(cut, s[i]);
    if t == [] {
      assert s == y;
    } else {
      assert !Drops(cut, s[|t| - 1]);
      assert u != [] && u[|u| - 1] == s[|u| - 1];
      assert u == s[..|t|];
    }
  }

  /**
   * The converse: whatever of `cut` surrounds a text with no character of
   * `cut` at either end, `strip` gives back exactly that text.
   */
  lemma StripByOf(x: string, r: string, y: string, cut: Cut)
    requires AllDropped(x, cut) && AllDropped(y, cut)
    requires NoEdge(r, cut)
    ensures StripBy(x + r + y, cut) == r
  {
    if r == [] {
      var z := x + y;
      forall i | 0 <= i < |z| ensures Drops(cut, z[i]) {
        if i >= |x| {
          assert z[i] == y[i - |x|];
        }
      }
      assert x + r + y == z + [];
      TrimStartOf(z, [], cut);
      TrimEndOf([], [], cut);
    } else {
      assert x + r + y == x + (r + y);
      TrimStartOf(x, r + y, cut);
      TrimEndOf(r, y, cut);
    }
  }

  /** The character at position `i` of the middle piece of `x + m + y`. */
  lemma MiddleAt(x: string, m: string, y: string)
    ensures forall i :: 0 <= i < |m| ==> (x + m + y)[|x| + i] == m[i]
  {
  }

  /** `str.strip()` with no argument. */
  function Strip(s: string): (r: string)
    ensures NoEdge(r, Whitespace) && |r| <= |s|
  {
    StripBy(s, Whitespace)
  }

  /** `strip()` leaves alone a string with no whitespace at either end. */
  lemma StripNoEdge(s: string)
    requires NoEdge(s, Whitespace)
    ensures Strip(s) == s
  {
    StripByNoEdge(s, Whitespace);
  }

  /** Whitespace before a text with none at its ends is stripped away. */
  lemma StripAfterSpace(x: string, r: string)
    requires AllDropped(x, Whitespace) && NoEdge(r, Whitespace)
    ensures Strip(x + r) == r
  {
    assert x + r + [] == x + r;
    StripByOf(x, r, [], Whitespace);
  }

  /** `sep.join(parts)`. */
  function Join(sep: string, parts: seq<string>): string {
    if parts == [] then ""
    else if |parts| == 1 then parts[0]
    else parts[0] + sep + Join(sep, parts[1..])
  }

  // ---------------------------------------------------------------------------
  // str(int) and its inverse
  // ---------------------------------------------------------------------------

  predicate IsDigit(c: char) {
    '0' <= c <= '9'
  }

  predicate IsDecimal(s: string) {
    s != [] && forall i :: 0 <= i < |s| ==> IsDigit(s[i])
  }

  /** What `str(n)` can produce for an int: digits, optionally after one minus sign. */
  predicate IsIntLiteral(s: string) {
    IsDecimal(s) || (|s| >= 2 && s[0] == '-' && IsDecimal(s[1..]))
  }

  function DigitValue(c: char): (d: nat)
    requires IsDigit(c)
    ensures d < 10
  {
    (c as int) - ('0' as int)
  }

  function DigitChar(d: nat): (c: char)
    requires d < 10
    ensures IsDigit(c) && DigitValue(c) == d
  {
    (('0' as int) + d) as char
  }

  /** `str(n)` for n >= 0: most significant digit first, no leading zero. */
  function NatToString(n: nat): (s: string)
    ensures IsDecimal(s)
    ensures |s| > 1 ==> s[0] != '0'
  {
    if n < 10 then [DigitChar(n)]
    else
      var front := NatToString(n / 10);
      assert front[0] != '0' by { if |front| == 1 { assert n / 10 != 0; } }
      front + [DigitChar(n % 10)]
  }

  /** Reads a string of decimal digits back as a number. */
  function DecimalValue(s: string): nat
    requires IsDecimal(s)
  {
    if |s| == 1 then DigitValue(s[0])
    else 10 * DecimalValue(s[..|s| - 1]) + DigitValue(s[|s| - 1])
  }

  lemma {:induction false} NatToStringRoundTrip(n: nat)
    ensures DecimalValue(NatToString(n)) == n
  {
    if n >= 10 {
      var s := NatToString(n);
      assert s[..|s| - 1] == NatToString(n / 10);
      NatToStringRoundTrip(n / 10);
    }
  }

  /** Python's `str(i)` for an int. */
  function IntToString(i: int): (s: string)
    ensures IsIntLiteral(s)
    ensures '_' !in s
  {
    var s := if i < 0 then "-" + NatToString(-i) else NatToString(i);
    assert s[0] == '-' ==> s[1..] == NatToString(-i);
    assert forall k :: 0 <= k < |s| ==> IsDigit(s[k]) || s[k] == '-';
    s
  }

  /** Python's `int(s)` on the literals `str` produces. */
  function ParseInt(s: string): int
    requires IsIntLiteral(s)
  {
    if s[0] == '-' then -(DecimalValue(s[1..]) as int) else DecimalValue(s)
  }

  lemma IntToStringRoundTrip(i: int)
    ensures ParseInt(IntToString(i)) == i
  {
    var s := IntToString(i);
    if i < 0 {
      assert s[1..] == NatToString(-i);
      NatToStringRoundTrip(-i);
    } else {
      NatToStringRoundTrip(i);
    }
  }

  /** Distinct ints print differently. */
  lemma IntToStringInjective(a: int, b: int)
    requires IntToString(a) == IntToString(b)
    ensures a == b
  {
    IntToStringRoundTrip(a);
    IntToStringRoundTrip(b);
  }

  // ---------------------------------------------------------------------------
  // Character mapping
  // ---------------------------------------------------------------------------

  function AsciiUpper(c: char): char {
    if 'a' <= c <= 'z' then ((c as int) - 32) as char else c
  }

  function AsciiLower(c: char): char {
    if 'A' <= c <= 'Z' then ((c as int) + 32) as char else c
  }

  /** `str.upper()` restricted to ASCII letters. */
  function Upper(s: string): (r: string)
    ensures |r| == |s| && forall i :: 0 <= i < |s| ==> r[i] == AsciiUpper(s[i])
  {
    seq(|s|, i requires 0 <= i < |s| => AsciiUpper(s[i]))
  }

  /** `str.lower()` restricted to ASCII letters. */
  function Lower(s: string): (r: string)
    ensures |r| == |s| && forall i :: 0 <= i < |s| ==> r[i] == AsciiLower(s[i])
  {
    seq(|s|, i requires 0 <= i < |s| => AsciiLower(s[i]))
  }

  /** `s.replace(from, to)` for single characters. */
  function ReplaceChar(s: string, from: char, to: char): (r: string)
    ensures |r| == |s|
    ensures forall i :: 0 <= i < |s| ==> r[i] == if s[i] == from then to else s[i]
  {
    seq(|s|, i requires 0 <= i < |s| => if s[i] == from then to else s[i])
  }
}
